=== FILE: README.md ===
# PySpeak core in Dafny

PySpeak is a small voice-chat system. A websocket server keeps live sessions (`clients`) and rooms. It relays audio, talking flags and chat inside a room, and gates room management, kick and ban behind a role. The Qt client detects when its user is talking and keeps a list of server bookmarks.

This project models four parts of it:
- the server's session and room state machine (Server/server.py);
- the default-room bootstrap (Server/database.py);
- the client's talking detector (Client/audio.py);
- the bookmark editor (Client/dialogs.py).

It then proves what those parts promise.

The server is one immutable `State`:
- the session dictionary, with its insertion order;
- the rooms table;
- the users table;
- the privilege-key table;
- the two write-only audit tables (chat and ban records).

Every handler is a pure function from a state and a request to a `Step`:
- `Completed(state, out)` is a normal return.
- `Raised(state, out)` means a Python exception escaped the handler after the effects in `state` and `out` had already happened.

Examples of `Raised` are a `KeyError` on a session that never joined, `fetchone()[0]` on a deleted room, and a member id that is no longer a client. `out` lists what went to which socket, in order. The connection loop (`Dispatch.Receive`) runs the `finally` cleanup after a raised handler and then closes the socket.

Modules, one per file:
- `Base`: Option, truthiness, sequence helpers.
- `Model`: the state and messages.
- `Fanout`: relay loops and the two broadcast notices.
- `Sessions`: connection, removal and disconnect.
- `Rooms`: join, switch, create, edit, delete, is_admin.
- `Traffic`: audio, talking, chat and private messages.
- `Moderation`: privilege keys, kick and ban.
- `Dispatch`: process_message and the connection loop.
- `Lifecycle`: which connections end with their session removed.
- `Invariants`: consistent room membership.
- `Properties`: properties that span handlers.
- `Bootstrap`: ensure_default_rooms.
- `VoiceActivity`: AudioThread.run.
- `Bookmarks`: the bookmark editor.

Behaviour of the code worth knowing, which the model keeps:
- switch_room has no password bypass for admins;
- delete_channel does not evict the members of the room;
- create_channel gates on the role cached at join, while edit, delete, kick and ban re-read the stored role;
- ban records are written but never consulted at join;
- kick and private messages look a user's uid up among connection ids.

## Model

| member | source | states |
|---|---|---|
| Base.RemoveFirst | Server/server.py:82-84 | `list.remove`: the result has one occurrence of the id fewer, as a multiset, and keeps every other element in order |
| Model.StoredRole | Server/server.py:426-432 | get_user_role: a role exactly when some users row has the uid, and then the role of such a row |
| Model.SetRole | Server/server.py:416-417 | the role update touches only rows of that uid; uids and names are unchanged |
| Model.SetRoleIsStored | Server/server.py:416-418 | after the update, the stored role of an existing uid is the granted role |
| Fanout.Relay | Server/server.py:183-186 | every send goes to a listed, live, open, non-skipped member; the loop completes iff every listed non-skipped id is still a client, and then every open one got the message |
| Fanout.Deliver | Server/server.py:447-450 | every listed id that is a client with an open socket receives the message, and nobody else |
| Fanout.LiveMembers | Server/server.py:443-446 | the member notice lists exactly the listed ids that are still clients, with their names |
| Fanout.LiveMembersSplits | Server/server.py:443-446 | the member notice is a comprehension over the members list: the entries of a concatenation are the entries of its parts, and one id gives its entry exactly when it is still a client, so order and one entry per occurrence are fixed |
| Fanout.LiveUsernames | Server/server.py:460-466 | one name per listed id that is still a client, in member order with duplicates kept (entry by entry the names of Fanout.LiveMembers) |
| Fanout.Directory | Server/server.py:455-467 | the room list has one entry per room, carrying the room's password and the names of its members that are still clients |
| Fanout.MembersUpdate | Server/server.py:439-451 | update_room_members reaches every open session listed in the room and no other, each getting the room's live member list |
| Fanout.RoomListUpdate | Server/server.py:453-472 | update_room_list reaches only open sessions, and every open session in the connection order |
| Properties.RoomListReachesAll | Server/server.py:453-472 | with the connection order registered, update_room_list reaches every open session and no other |
| Properties.ReceiveKeepsRegistered | Server/server.py:64-74 | a whole turn, cleanup included, keeps every session listed exactly once in the connection order |
| Rooms.JoinKeepsRegistered | Server/server.py:121-174 | a join changes one session in place and adds none, so the connection order stays registered |
| Sessions.Connect | Server/server.py:61-62 | a new connection registers a session with no room, name or identity, touching no other session and no table |
| Sessions.RemoveClient | Server/server.py:76-91 | a no-op for a non-client; raises, changing nothing, iff the session's truthy room no longer exists; otherwise deletes the session and removes one occurrence of its id from its room only; when the id was listed, the room's member notice and the room list go out, computed before the session is deleted, and otherwise nothing is sent |
| Sessions.Disconnect | Server/server.py:71-74 | after the client hangs up, removal raises exactly when the session names a room that no longer exists, and then the session stays with a closed socket and nothing is sent; otherwise the session is deleted and no notice goes to the leaving socket |
| Rooms.Provision | Server/server.py:133-141 | an unseen uid gets one new row with role "user"; a known uid's rows are unchanged |
| Rooms.Enter | Server/server.py:147-158 | the target room is created if absent (no password, no members), then gets the id appended once; other rooms are unchanged |
| Rooms.Join | Server/server.py:121-174 | a wrong server password is an error reply with no change; otherwise the account is provisioned, the room entered, the session caches name, uid and stored role, nothing else in the state changes, and the output is the welcome, the room greeting, the room's member notice and the room list, in that order |
| Rooms.Move | Server/server.py:268-281 | switching removes one occurrence of the id from the previous (truthy) room and appends it to the target; every other room is unchanged |
| Rooms.SwitchRoom | Server/server.py:241-291 | already there, no such room, or a wrong password each give one reply and no change; a deleted current room raises with no change; otherwise the membership moves and the session's room becomes the target; the output is the old room's member notice (read before the move, sent only if the id was listed there), the new room's member notice, switched_room and the room list |
| Rooms.CreateRoom | Server/server.py:293-312 | gated by the cached role (none raises, a non-privileged one is refused with no change); an existing name is refused; otherwise only the new empty room is added, and the confirmation and the room list go out |
| Rooms.IsAdmin | Server/server.py:434-437 | true iff the stored role of the session's uid is admin or superadmin; undefined (KeyError) without a uid |
| Rooms.EditRoom | Server/server.py:314-333 | gated by the stored role; only the named room's password changes, and the confirmation and the room list go out; a missing room is an error reply with no change |
| Rooms.DeleteRoom | Server/server.py:335-353 | gated by the stored role; only the named room disappears and no session changes, and the confirmation and the room list go out; a missing room is an error reply with no change |
| Traffic.SenderRoom | Server/server.py:177-181 | the members row is found iff the session has a room that still exists |
| Traffic.Finish | Server/server.py:183-186 | a relay that stopped on a gone member ends the handler with an exception, keeping what was sent |
| Traffic.RelayAudio | Server/server.py:176-186 | the state is unchanged; the payload goes only to open, live members of the sender's room other than the sender; the loop completes exactly when every other listed member is still a client (a stale id raises KeyError), and then it reaches all the open ones |
| Traffic.RelayTalking | Server/server.py:188-200 | the talking flag goes only to open, live members of the sender's room, sender included; the loop completes exactly when every listed member is still a client, and then it reaches all the open ones |
| Traffic.AuthorRow | Server/server.py:211-212 | the author is the first users row with the session's cached name, and none when no row has it |
| Traffic.ChatMessage | Server/server.py:202-223 | a missing room or author raises with no change; otherwise one chat record is appended, the relay completes exactly when every listed member is still a client, and then the text reaches exactly the open live members of the room |
| Traffic.PrivateMessage | Server/server.py:225-239 | the state is unchanged; at most one message is sent, to the uid of the first users row with the recipient's name, and one is sent iff that uid is an open client id |
| Moderation.UsePrivilegeKey | Server/server.py:407-424 | an unknown key is an error reply with no change; a known key sets the stored role of the uid and the cached role of the session to the key's role and changes nothing else |
| Moderation.Kick | Server/server.py:383-405 | refusal and unknown user leave the state unchanged; a found user is reported kicked; if the uid is a client id that session is removed and the handler raises without closing any socket |
| Moderation.StartBan | Server/server.py:356-373 | gate, lookup, the ban record (default reason "No reason provided") and the confirmation before the loop |
| Moderation.BanSweepAsWritten | Server/server.py:375-378 | the loop as written completes iff no session has the name; otherwise at most one session is removed |
| Moderation.BanAsWritten | Server/server.py:356-381 | handle_ban as written raises iff some session carries the banned name |
| Moderation.Matching | Server/server.py:375-376 | the snapshot holds exactly the sessions with the banned name |
| Moderation.BanSweep | Server/server.py:375-378 | the corrected loop adds and changes no session, keeps every id outside the snapshot, and completes when every removal can; on completion each snapshot session is gone and its socket closed |
| Moderation.Ban | Server/server.py:356-381 | the corrected ban: on completion no session in the order carries the name, and every session without the name survives |
| Dispatch.Process | Server/server.py:93-119 | unknown message types are ignored with no change; relays and messages never change sessions or rooms; every request keeps the connection order registered |
| Dispatch.Receive | Server/server.py:64-74 | a turn ends iff the handler raised; then the handler's sends come first, the cleanup's notices next and the close of the requester's socket last, and the session is gone unless the cleanup raised, in which case it is stranded with a closed socket in a deleted room |
| Dispatch.Connection | Server/server.py:60-74 | a connection that ends normally leaves no session behind, and one that raises leaves its session stranded in a deleted room |
| Dispatch.Run | Server/server.py:65-74 | each frame is handled in turn; a normal end leaves no session for the id, and a raised end leaves it stranded in a deleted room |
| Lifecycle.HousedRemoves | Server/server.py:76-91 | removal of a session that names no room or an existing one completes and deletes it |
| Lifecycle.ProcessHoused | Server/server.py:93-119 | every request other than delete_room leaves the requester's room in the rooms table |
| Lifecycle.KickHoused | Server/server.py:383-405 | kick removes at most a session and never a room, so the requester's room stays |
| Lifecycle.BanHoused | Server/server.py:356-381 | the ban sweep removes sessions and never a room, so the requester's room stays |
| Lifecycle.ReceiveHoused | Server/server.py:65-74 | a frame other than delete_room keeps the requester's room, and a turn it ends removes the session |
| Lifecycle.RunCompletes | Server/server.py:65-74 | frames with no delete_room always end with the session removed |
| Lifecycle.ConnectionCompletes | Server/server.py:60-91 | a connection that never asks to delete a room completes and leaves no session |
| Lifecycle.DeletingOwnRoomStrands | Server/server.py:335-354 | an admin who joins the Lobby, deletes it and hangs up makes the cleanup raise, so the condition above is needed |
| Invariants.RemoveClientConsistent | Server/server.py:76-91 | with consistent membership, removal never raises and keeps membership consistent |
| Invariants.JoinConsistent | Server/server.py:143-161 | a first join into a named room keeps membership consistent |
| Invariants.RejoinBreaksConsistency | Server/server.py:156-161 | a second join never leaves the previous room, so membership becomes inconsistent |
| Invariants.SwitchRoomConsistent | Server/server.py:268-284 | with consistent membership a switch never raises and keeps membership consistent |
| Invariants.CreateRoomConsistent | Server/server.py:304-308 | room creation keeps membership consistent |
| Invariants.EditRoomConsistent | Server/server.py:325-329 | editing a room keeps membership consistent |
| Invariants.DeleteRoomConsistent | Server/server.py:345-350 | deletion keeps membership consistent iff it does not remove an occupied room |
| Properties.MembersNoticeStaysInRoom | Server/server.py:439-451 | with consistent membership, the member notice reaches exactly the open sessions in the room and lists every one of them |
| Properties.AudioStaysInRoom | Server/server.py:176-186 | with consistent membership, audio reaches exactly the other open sessions of the sender's room, so no other room's session gets anything |
| Properties.TalkingStaysInRoom | Server/server.py:188-200 | with consistent membership, the talking flag reaches exactly the open sessions of the sender's room |
| Properties.ChatStaysInRoom | Server/server.py:202-223 | with consistent membership and a known author, chat reaches exactly the open sessions of the sender's room |
| Properties.AdminKeyGrantsAdmin | Server/server.py:407-424 | redeeming an "admin" key makes is_admin true and the cached role privileged |
| Properties.CachedAndStoredRolesDiffer | Server/server.py:293-300 | a session demoted after joining can still create rooms but cannot delete them |
| Properties.BanAsWrittenLeavesSession | Server/server.py:375-378 | with two sessions of one name, the ban as written raises and leaves a session with that name |
| Properties.BanTwoSessionsAsWritten | Server/server.py:375-378 | concrete case: "b2" survives the ban of "bob" as written |
| Properties.BanTwoSessionsCorrected | Server/server.py:375-378 | concrete case: the corrected ban removes "b1" and "b2" and keeps the admin |
| Properties.RaisedHandlerClosesRequester | Server/server.py:64-74 | a raised handler ends the turn and closes the requester's socket |
| Properties.BanRemovesAll | Server/server.py:356-381 | with consistent membership, the corrected ban completes, removes and closes every session of the name, keeps the rest, and keeps membership consistent |
| Properties.BanSweepConsistent | Server/server.py:375-378 | the snapshot loop never raises and keeps membership consistent |
| Properties.KickConsistent | Server/server.py:383-405 | kick keeps membership consistent |
| Properties.BanConsistent | Server/server.py:356-381 | ban keeps membership consistent |
| Properties.PrivilegeKeyConsistent | Server/server.py:407-424 | redeeming a key keeps membership consistent |
| Properties.ChatConsistent | Server/server.py:202-223 | chat keeps membership consistent |
| Properties.ProcessConsistent | Server/server.py:93-119 | every request that does not rejoin, switch into "" or delete an occupied room keeps membership consistent |
| Properties.MarkClosedConsistent | Server/server.py:71-74 | a closed socket changes no membership |
| Properties.ReceiveConsistent | Server/server.py:64-74 | a whole turn, cleanup included, keeps membership consistent, and an ended turn always removes the session |
| Properties.ConnectConsistent | Server/server.py:61-62 | registering a fresh connection keeps membership consistent |
| Bootstrap.EnsureDefaultRooms | Server/database.py:51-63 | afterwards "Lobby" exists; a new Lobby has no password and no members; every other room is unchanged |
| Bootstrap.EnsureDefaultRoomsIdempotent | Server/database.py:56-61 | running the bootstrap again changes nothing |
| Bootstrap.EnsureDefaultRoomsAddsAtMostLobby | Server/database.py:56-61 | the bootstrap adds one room when Lobby is missing and none otherwise |
| VoiceActivity.Peak | Client/audio.py:30 | the level is a sample of the frame and no sample exceeds it |
| VoiceActivity.Push | Client/audio.py:22 | the bounded deque keeps at most 300 flags, with the new flag last and the oldest dropped when full |
| VoiceActivity.Step | Client/audio.py:25-47 | mute and unmute only flip the flag; a muted tick does nothing; an unmuted tick appends one flag, then becomes talking exactly when it was not and no flag is silent, and quiet exactly when it was talking and every flag is silent; a status goes out exactly on that change, before the raw frame |
| VoiceActivity.FirstLoudFrameAnnounces | Client/audio.py:28-41 | from the start, a loud frame sends talking true and then the frame |
| VoiceActivity.SilentWindowEndsTalking | Client/audio.py:28-41 | a talking detector with an all-silent window sends talking false on a silent frame, then the frame |
| VoiceActivity.Run | Client/audio.py:27-41 | the window stays within 300 flags over any sequence of events |
| VoiceActivity.StepStreams | Client/audio.py:33-41 | one step sends a status iff the talking bit changed, and a frame iff it ticked unmuted |
| VoiceActivity.StatusesAlternate | Client/audio.py:26-39 | from the start, statuses alternate beginning with true, and the detector is talking iff an odd number was sent |
| VoiceActivity.FramesForwarded | Client/audio.py:28-41 | the forwarded frames are exactly the frames read while unmuted, in order |
| VoiceActivity.RunThread | Client/audio.py:25-41 | the loop's output alternates statuses and forwards every frame read |
| Bookmarks.Open | Client/dialogs.py:111-115 | one label per bookmark, showing its name |
| Bookmarks.Load | Client/dialogs.py:117-123 | the form shows the selected bookmark's four fields |
| Bookmarks.Entry | Client/dialogs.py:132-137 | a saved entry has exactly the four form fields |
| Bookmarks.Save | Client/dialogs.py:125-140 | with no row selected, one entry and label are appended; otherwise only the selected entry and label are replaced; names stay shown |
| Bookmarks.Delete | Client/dialogs.py:142-146 | with no row selected nothing changes; otherwise the selected entry and label go and the rest keep their order |
| Bookmarks.SaveNewThenDelete | Client/dialogs.py:125-146 | deleting the row a new bookmark was saved into restores the list |
| Bookmarks.SaveLoadedIsNoOp | Client/dialogs.py:117-140 | saving an unedited loaded form changes nothing |
| Bookmarks.SaveIdempotent | Client/dialogs.py:125-140 | saving the same form twice into a row equals saving it once |
| Bookmarks.SaveOverwrites | Client/dialogs.py:125-140 | a later save into the same row replaces an earlier one |

## Left out

- Transport: websockets, TLS and asyncio scheduling are left out. Each handler is one atomic step, so interleavings of concurrent handlers are not modelled, and an `open` flag stands for the socket.
- Storage: SQLite and the JSON encoding of member lists are in-memory maps and sequences. The rooms columns server.py reads (password third, members fourth) match the schema `init_db` creates. The users columns do not: handle_join inserts uid, password and is_superadmin and reads the role as the fifth column, while Server/database.py:9-14 creates id, username, uuid and role. Users rows are therefore abstracted to uid, name and role.
- Join requests: a modelled join always carries a uid. The shipped client's join (Client/network.py:10, Client/gui.py:335) sends none, so handle_join raises KeyError on every join that client makes; that client is not part of this model.
- Decoding: JSON decoding of requests, and the `KeyError` on a missing `type` or field, are left out; requests arrive as a decoded `Request`.
- Audio requests: the `audio` message type routes a decoded dict to handle_audio, which is modelled like a binary frame.
- Requester sends: a send to the requester is assumed to succeed. Sends to other sessions check `open`, as the source does.
- Ban records: they are appended to a log and never consulted, as in the source.
- Configuration and backups: the configuration file becomes a `Config` value. Periodic backup (Server/backup.py) is left out.
- Admin bootstrap: the admin and privilege-key bootstrap of Server/server_gui.py is left out. `create_initial_admin` and `create_initial_privilege_key` are imported by server.py but not defined in database.py.
- Client UI: the Qt widgets, volume adjustment (floating point), settings and network wrappers, the sound generator and utils are left out. The duplicate editor and audio loop in Client/Client.py are identical to the modelled ones.
- Audio thread: `stop` and the `running` flag are left out; a finite event sequence stands for the loop's lifetime.
- Dispatch.Process: ban is routed to the corrected Moderation.Ban, not to Moderation.BanAsWritten, so Dispatch.Receive, Dispatch.Run, Dispatch.Connection, Properties.ProcessConsistent and Properties.ReceiveConsistent describe the server with the snapshot fix of the Findings table applied.
- Dispatch.Process: its contract states only the ignored types and that relays keep sessions and rooms. Each request's effect is stated by its handler's contract and by Properties.ProcessConsistent.
- Dispatch.Run: it states what a normal and a raised end leave behind, not the order of effects across frames.
- Dispatch.Connection: like Dispatch.Run, it does not state the effects across frames. When it completes is stated by Lifecycle.ConnectionCompletes.
- Invariants.JoinConsistent: it requires a session in no room and a truthy target, because a second join breaks membership (Invariants.RejoinBreaksConsistency) and a room named "" is never left by remove_client_from_room.
- Invariants.SwitchRoomConsistent: it requires a truthy target for the same reason.
- Properties.ProcessConsistent: it excludes the requests above and the deletion of an occupied room, which breaks membership (Invariants.DeleteRoomConsistent).
- VoiceActivity.Peak: it is the largest sample value, as in the source, not the largest magnitude. Samples are not bounded to 16 bits.

## Findings

| source | as written | input that shows it | evidently intended | confidence | as-written member | corrected member |
|---|---|---|---|---|---|---|
| Server/server.py:375-378 | handle_ban deletes from `clients` (through remove_client_from_room) while iterating `clients.items()`, so the iteration after the first removal raises RuntimeError | one account connected twice ("b1" and "b2", both "bob") and banned by an admin: "b2" stays connected and the admin's own handler raises, which closes the admin's connection | iterate over a snapshot of the matching sessions so that every one is removed and closed and the handler completes | high, not executed | Moderation.BanAsWritten | Moderation.Ban |

=== FILE: base.dfy ===
/** Small shared vocabulary: an optional value, Python truthiness of optional
    strings, and the sequence operations the server performs on member lists
    (`list.remove`, `list.append`) and on its registration order. */
module Base {

  datatype Option<+T> = None | Some(value: T) {

    /** The value, or `default` when there is none (Python's `dict.get(k, default)`). */
    function GetOr(default: T): T {
      match this
      case Some(v) => v
      case None => default
    }
  }

  /** Python truthiness of an optional string: both `None` and `""` are false. */
  predicate Truthy(o: Option<string>) {
    o.Some? && o.value != ""
  }

  /** No element occurs twice. */
  predicate NoDup<T(==)>(s: seq<T>) {
    forall i, j | 0 <= i < j < |s| :: s[i] != s[j]
  }

  /** Index of the first element satisfying `p`, if any. */
  function FirstIndex<T>(s: seq<T>, p: T -> bool): (r: Option<nat>)
    ensures r.Some? ==> r.value < |s| && p(s[r.value])
    ensures r.Some? ==> forall j | 0 <= j < r.value :: !p(s[j])
    ensures r.None? ==> forall j | 0 <= j < |s| :: !p(s[j])
  {
    if |s| == 0 then None
    else if p(s[0]) then Some(0)
    else
      match FirstIndex(s[1..], p)
      case None => None
      case Some(i) => Some(i + 1)
  }

  /** Index of the first occurrence of `x` in `s`. */
  function IndexOf<T(==)>(s: seq<T>, x: T): (i: nat)
    requires x in s
    ensures i < |s| && s[i] == x && x !in s[..i]
  {
    if s[0] == x then 0 else 1 + IndexOf(s[1..], x)
  }

  /** Python's `list.remove(x)`: drop the first occurrence of `x` and keep the
      order of everything else. */
  function RemoveFirst<T(==)>(s: seq<T>, x: T): (r: seq<T>)
    requires x in s
    ensures |r| == |s| - 1
    ensures multiset(r) == multiset(s) - multiset{x}
    ensures forall j | 0 <= j < IndexOf(s, x) :: r[j] == s[j]
    ensures forall j | IndexOf(s, x) <= j < |r| :: r[j] == s[j + 1]
  {
    var i := IndexOf(s, x);
    var front, back := s[..i], s[i + 1..];
    assert s == front + [x] + back;
    assert multiset(s) == multiset(front) + multiset{x} + multiset(back);
    front + back
  }

  /** Drop every occurrence of `x` (deleting a key from an insertion-ordered dict). */
  function Without<T(==)>(s: seq<T>, x: T): (r: seq<T>)
    ensures forall y | y in r :: y in s && y != x
    ensures forall y | y in s && y != x :: y in r
    ensures NoDup(s) ==> NoDup(r)
    ensures x !in s ==> r == s
  {
    if |s| == 0 then []
    else
      var rest := Without(s[1..], x);
      if s[0] == x then rest
      else
        assert NoDup(s) ==> s[0] !in rest;
        [s[0]] + rest
  }

  /** Removing the element just appended, when it was not there before,
      gives the original sequence back: `list.remove` undoes `list.append`. */
  lemma {:induction false} RemoveFirstUndoesAppend<T>(s: seq<T>, x: T)
    requires x !in s
    ensures RemoveFirst(s + [x], x) == s
  {
    assert IndexOf(s + [x], x) == |s|;
    assert (s + [x])[..|s|] == s;
  }

  /** Appending after removing one occurrence keeps the count of `x` when `x`
      occurred: the pair (remove, append) is a net move of one occurrence. */
  lemma RemoveThenAppendCount<T>(s: seq<T>, x: T)
    requires x in s
    ensures multiset(RemoveFirst(s, x) + [x]) == multiset(s)
  {
  }

  /** Concatenation regroups freely. */
  lemma ConcatAssoc<T>(x: seq<T>, y: seq<T>, z: seq<T>)
    ensures x + (y + z) == (x + y) + z
  {
  }
}

=== FILE: bookmarks.dfy ===
/** The bookmark editor of the client (ManageBookmarksDialog): a list of
    saved servers shown as a list of names, a selected row (-1 when none is
    selected) and a four-field form. */
module Bookmarks {

  /** One saved server: exactly the four fields of the form. */
  datatype Bookmark = Bookmark(name: string, address: string, password: string, nickname: string)

  /** The text of the four line edits. */
  datatype Form = Form(name: string, address: string, password: string, nickname: string)

  /** The dialog's data: the bookmark list and the labels of the list widget,
      row for row. */
  datatype Editor = Editor(bookmarks: seq<Bookmark>, labels: seq<string>)

  /** The list widget shows each bookmark's name in the bookmark's row. */
  predicate Shown(e: Editor) {
    |e.labels| == |e.bookmarks| && forall i | 0 <= i < |e.bookmarks| :: e.labels[i] == e.bookmarks[i].name
  }

  /** What `currentRow()` can return: -1 or a row of the list. */
  predicate ValidRow(e: Editor, row: int) {
    row == -1 || 0 <= row < |e.labels|
  }

  /** load_bookmarks: one label per bookmark. */
  function Open(bookmarks: seq<Bookmark>): (r: Editor)
    ensures Shown(r) && r.bookmarks == bookmarks
  {
    Editor(bookmarks, seq(|bookmarks|, i requires 0 <= i < |bookmarks| => bookmarks[i].name))
  }

  /** load_selected_bookmark: the form shows the fields of the selected row. */
  function Load(e: Editor, row: nat): (r: Form)
    requires row < |e.bookmarks|
    ensures Entry(r) == e.bookmarks[row]
  {
    var b := e.bookmarks[row];
    Form(b.name, b.address, b.password, b.nickname)
  }

  /** The dictionary built from the form. */
  function Entry(f: Form): (b: Bookmark)
    ensures b.name == f.name && b.address == f.address && b.password == f.password && b.nickname == f.nickname
  {
    Bookmark(f.name, f.address, f.password, f.nickname)
  }

  /** save_current_bookmark. With no row selected a new entry (and a new label)
      is appended; otherwise the selected entry is overwritten and its label
      renamed. Either way the entry is built from the form. */
  function Save(e: Editor, row: int, f: Form): (r: Editor)
    requires ValidRow(e, row)
    requires |e.labels| == |e.bookmarks|
    ensures row == -1 ==> r.bookmarks == e.bookmarks + [Entry(f)] && r.labels == e.labels + [f.name]
    ensures row != -1 ==>
      && |r.bookmarks| == |e.bookmarks| && |r.labels| == |e.labels|
      && r.bookmarks[row] == Entry(f) && r.labels[row] == f.name
      && (forall i | 0 <= i < |e.bookmarks| && i != row :: r.bookmarks[i] == e.bookmarks[i] && r.labels[i] == e.labels[i])
    ensures Shown(e) ==> Shown(r)
  {
    var index := if row == -1 then |e.bookmarks| else row;
    var grown := if row == -1 then Editor(e.bookmarks + [Bookmark("", "", "", "")], e.labels + [f.name]) else e;
    grown.(bookmarks := grown.bookmarks[index := Entry(f)], labels := grown.labels[index := f.name])
  }

  /** delete_current_bookmark. With no row selected nothing happens;
      otherwise the selected entry and its label are removed and the others
      keep their order. */
  function Delete(e: Editor, row: int): (r: Editor)
    requires ValidRow(e, row)
    requires |e.labels| == |e.bookmarks|
    ensures row == -1 ==> r == e
    ensures row != -1 ==>
      && |r.bookmarks| == |e.bookmarks| - 1 && |r.labels| == |e.labels| - 1
      && (forall i | 0 <= i < row :: r.bookmarks[i] == e.bookmarks[i] && r.labels[i] == e.labels[i])
      && (forall i | row <= i < |r.bookmarks| :: r.bookmarks[i] == e.bookmarks[i + 1] && r.labels[i] == e.labels[i + 1])
    ensures Shown(e) ==> Shown(r)
  {
    if row == -1 then e
    else Editor(e.bookmarks[..row] + e.bookmarks[row + 1..], e.labels[..row] + e.labels[row + 1..])
  }

  /** Saving a new bookmark and then deleting the row it landed in restores
      the editor. */
  lemma SaveNewThenDelete(e: Editor, f: Form)
    requires Shown(e)
    ensures Delete(Save(e, -1, f), |e.bookmarks|) == e
  {
    var s := Save(e, -1, f);
    assert s.bookmarks[..|e.bookmarks|] == e.bookmarks;
    assert s.labels[..|e.labels|] == e.labels;
    assert s.bookmarks[|e.bookmarks| + 1..] == [] && s.labels[|e.labels| + 1..] == [];
  }

  /** Saving the form as it was loaded for the selected row changes nothing. */
  lemma SaveLoadedIsNoOp(e: Editor, row: nat)
    requires Shown(e) && row < |e.bookmarks|
    ensures Save(e, row, Load(e, row)) == e
  {
    var r := Save(e, row, Load(e, row));
    assert r.bookmarks == e.bookmarks;
    assert r.labels == e.labels;
  }

  /** Saving the same form twice into a selected row is saving it once. */
  lemma SaveIdempotent(e: Editor, row: nat, f: Form)
    requires Shown(e) && row < |e.bookmarks|
    ensures Save(Save(e, row, f), row, f) == Save(e, row, f)
  {
    var once := Save(e, row, f);
    var twice := Save(once, row, f);
    assert twice.bookmarks == once.bookmarks;
    assert twice.labels == once.labels;
  }

  /** Overwriting row i replaces what a previous save into row i wrote: the
      last save wins. */
  lemma SaveOverwrites(e: Editor, row: nat, f: Form, g: Form)
    requires Shown(e) && row < |e.bookmarks|
    ensures Save(Save(e, row, f), row, g) == Save(e, row, g)
  {
    var a := Save(Save(e, row, f), row, g);
    var b := Save(e, row, g);
    assert a.bookmarks == b.bookmarks;
    assert a.labels == b.labels;
  }
}

=== FILE: bootstrap.dfy ===
/** Start-up step of the server's storage: the default room. */
module Bootstrap {
  import opened Base
  import opened Model

  /** ensure_default_rooms: create "Lobby" with no password and no members
      unless a room of that name exists; no other room is touched. */
  function EnsureDefaultRooms(rooms: map<RoomName, Room>): (r: map<RoomName, Room>)
    ensures DefaultRoom in r
    ensures r.Keys == rooms.Keys + {DefaultRoom}
    ensures forall n | n in rooms :: r[n] == rooms[n]
    ensures DefaultRoom !in rooms ==> r[DefaultRoom] == Room(None, [])
  {
    if DefaultRoom in rooms then rooms else rooms[DefaultRoom := Room(None, [])]
  }

  /** Running the bootstrap again (a restart) changes nothing. */
  lemma EnsureDefaultRoomsIdempotent(rooms: map<RoomName, Room>)
    ensures EnsureDefaultRooms(EnsureDefaultRooms(rooms)) == EnsureDefaultRooms(rooms)
  {
  }

  /** The bootstrap adds at most one room, so no restart sequence can grow the
      table by more than the one Lobby. */
  lemma EnsureDefaultRoomsAddsAtMostLobby(rooms: map<RoomName, Room>)
    ensures |EnsureDefaultRooms(rooms)| == if DefaultRoom in rooms then |rooms| else |rooms| + 1
  {
    var r := EnsureDefaultRooms(rooms);
    if DefaultRoom !in rooms {
      assert r.Keys == rooms.Keys + {DefaultRoom};
      assert |r.Keys| == |rooms.Keys| + 1;
    } else {
      assert r.Keys == rooms.Keys;
    }
  }
}

=== FILE: dispatch.dfy ===
/** The per-connection loop of the server (handler) and the dispatch on the
    message type (process_message). Requests arrive already decoded. */
module Dispatch {
  import opened Base
  import opened Model
  import opened Sessions
  import opened Rooms
  import opened Traffic
  import opened Moderation

  /** The structured messages process_message routes, one per `type`; every
      other type is ignored. Optional fields are the ones read with `.get`. */
  datatype Request =
    | JoinReq(username: string, uid: Uid, room: Option<RoomName>, password: Option<string>)
    | ChatReq(text: string)
    | SwitchRoomReq(newRoom: RoomName, roomPassword: Option<string>)
    | CreateChannelReq(name: RoomName, roomPassword: Option<string>)
    | EditChannelReq(name: RoomName, roomPassword: Option<string>)
    | DeleteChannelReq(name: RoomName)
    | AudioReq(payload: Payload)
    | TalkingReq(status: bool)
    | PrivateMessageReq(recipient: string, text: string)
    | BanReq(username: string, reason: Option<string>)
    | KickReq(username: string, reason: Option<string>)
    | UsePrivilegeKeyReq(key: string)
    | OtherReq(kind: string)

  /** A websocket frame: binary frames are audio, text frames are requests. */
  datatype Frame = Binary(payload: Payload) | Text(request: Request)

  /** process_message: route a request to its handler. */
  function Process(s: State, id: ClientId, req: Request): (r: Step)
    requires id in s.clients
    ensures Registered(s) ==> Registered(r.state)
    ensures req.OtherReq? ==> r == Completed(s, [])
    ensures req.AudioReq? || req.TalkingReq? || req.ChatReq? || req.PrivateMessageReq? ==>
      r.state.rooms == s.rooms && r.state.clients == s.clients
  {
    match req
    case JoinReq(username, uid, room, password) =>
      if Registered(s) then JoinKeepsRegistered(s, id, username, uid, room, password); Join(s, id, username, uid, room, password)
      else Join(s, id, username, uid, room, password)
    case ChatReq(text) => ChatMessage(s, id, text)
    case SwitchRoomReq(target, password) => SwitchRoom(s, id, target, password)
    case CreateChannelReq(name, password) => CreateRoom(s, id, name, password)
    case EditChannelReq(name, password) => EditRoom(s, id, name, password)
    case DeleteChannelReq(name) => DeleteRoom(s, id, name)
    case AudioReq(payload) => RelayAudio(s, id, payload)
    case TalkingReq(status) => RelayTalking(s, id, status)
    case PrivateMessageReq(recipient, text) => PrivateMessage(s, id, recipient, text)
    case BanReq(username, reason) => Ban(s, id, username, reason)
    case KickReq(username, _) => Kick(s, id, username)
    case UsePrivilegeKeyReq(key) => UsePrivilegeKey(s, id, key)
    case OtherReq(_) => Completed(s, [])
  }

  /** The state after one frame, what was sent, and whether the connection
      ended. */
  datatype Turn = Turn(state: State, out: seq<Outbound>, ended: bool)

  /** One iteration of handler's `async for`. When the handler raised, the
      `finally` clause runs remove_client_from_room while the socket is still
      open, then the server closes the connection. If that removal raises as
      well (the session's room was deleted), the session entry stays behind
      with a closed socket. */
  function Receive(s: State, id: ClientId, frame: Frame): (r: Turn)
    requires id in s.clients
    ensures !r.ended ==> r.state == Handle(s, id, frame).state && r.out == Handle(s, id, frame).out
    ensures r.ended <==> Handle(s, id, frame).Raised?
    ensures r.ended ==> id !in r.state.clients || !r.state.clients[id].open
    ensures r.ended ==> |r.out| >= 1 && r.out[|r.out| - 1] == Close(id)
    ensures r.ended ==>
      && |Handle(s, id, frame).out| < |r.out|
      && r.out[..|Handle(s, id, frame).out|] == Handle(s, id, frame).out
      && r.out[|Handle(s, id, frame).out|..|r.out| - 1] == RemoveClient(Handle(s, id, frame).state, id).out
    ensures r.ended ==> (id in r.state.clients <==> RemoveClient(Handle(s, id, frame).state, id).Raised?)
    ensures r.ended && id in r.state.clients ==> Stranded(r.state, id)
  {
    match Handle(s, id, frame)
    case Completed(st, out) => Turn(st, out, false)
    case Raised(st, out) =>
      var rm := RemoveClient(st, id);
      Turn(MarkClosed(rm.state, id), out + rm.out + [Close(id)], true)
  }

  /** Route one frame. */
  function Handle(s: State, id: ClientId, frame: Frame): Step
    requires id in s.clients
  {
    match frame
    case Binary(payload) => RelayAudio(s, id, payload)
    case Text(req) => Process(s, id, req)
  }

  /** A session left behind by a failed cleanup: its socket is closed and
      it names a room that no longer exists. */
  predicate Stranded(s: State, id: ClientId) {
    && id in s.clients && !s.clients[id].open
    && Truthy(s.clients[id].room) && s.clients[id].room.value !in s.rooms
  }

  /** A whole connection: register, handle each frame, and on the first
      ended turn stop; after the last frame the client closes its socket.
      It raises only when the cleanup finds the session's room deleted. */
  function Connection(s: State, id: ClientId, frames: seq<Frame>): (r: Step)
    ensures r.Completed? ==> id !in r.state.clients
    ensures r.Raised? ==> Stranded(r.state, id)
  {
    Run(Connect(s, id), id, frames)
  }

  /** Handle frames until one ends the connection or none are left, then
      take the disconnect path. */
  function Run(s: State, id: ClientId, frames: seq<Frame>): (r: Step)
    decreases |frames|
    ensures r.Completed? ==> id !in r.state.clients
    ensures r.Raised? ==> Stranded(r.state, id)
  {
    if id !in s.clients then Completed(s, [])
    else if |frames| == 0 then Disconnect(s, id)
    else
      var t := Receive(s, id, frames[0]);
      if t.ended then
        if id in t.state.clients then Raised(t.state, t.out) else Completed(t.state, t.out)
      else
        var rest := Run(t.state, id, frames[1..]);
        After(t.out, rest)
  }
}

=== FILE: fanout.dfy ===
/** The server's broadcast loops: relaying audio, talking flags and chat to a
    room (handle_audio, handle_talking, handle_message), the member-list
    notice of one room (update_room_members) and the room directory sent to
    everybody (update_room_list). */
module Fanout {
  import opened Base
  import opened Model

  /** What a relay loop sent, and whether it ran to the end. */
  datatype Delivery = Delivery(sends: seq<Outbound>, complete: bool)

  /** The relay loop over a room's members: every member other than the
      sender (`skip`, `None` for the loops without a sender test) whose
      socket is open gets the message, in list order. A member id that is no
      longer a key of `clients` raises KeyError: the loop stops there, and
      what was sent before stays sent. */
  function Relay(members: seq<ClientId>, clients: map<ClientId, Session>, skip: Option<ClientId>, msg: Msg): (d: Delivery)
    ensures forall o | o in d.sends ::
      o.Send? && o.msg == msg && o.to in members && o.to in clients && clients[o.to].open && Some(o.to) != skip
    ensures d.complete <==> forall m | m in members && Some(m) != skip :: m in clients
    ensures d.complete ==>
      forall m | m in members && Some(m) != skip && m in clients && clients[m].open :: Send(m, msg) in d.sends
  {
    if |members| == 0 then Delivery([], true)
    else
      var m := members[0];
      assert forall x | x in members :: x == m || x in members[1..];
      if Some(m) == skip then Relay(members[1..], clients, skip, msg)
      else if m !in clients then Delivery([], false)
      else
        var rest := Relay(members[1..], clients, skip, msg);
        Delivery((if clients[m].open then [Send(m, msg)] else []) + rest.sends, rest.complete)
  }

  /** Send `msg` to every listed id that is still a client with an open
      socket, in list order; ids that are gone are skipped. */
  function Deliver(ids: seq<ClientId>, clients: map<ClientId, Session>, msg: Msg): (r: seq<Outbound>)
    ensures forall o | o in r :: o.Send? && o.msg == msg && o.to in ids && o.to in clients && clients[o.to].open
    ensures forall m | m in ids && m in clients && clients[m].open :: Send(m, msg) in r
  {
    if |ids| == 0 then []
    else
      var m := ids[0];
      assert forall x | x in ids :: x == m || x in ids[1..];
      (if m in clients && clients[m].open then [Send(m, msg)] else []) + Deliver(ids[1..], clients, msg)
  }

  /** The `member_details` of update_room_members: name and id of every
      listed member that is still a client, in list order. */
  function LiveMembers(members: seq<ClientId>, clients: map<ClientId, Session>): (r: seq<MemberEntry>)
    ensures |r| <= |members|
    ensures forall e | e in r :: e.id in members && e.id in clients && e.username == clients[e.id].username
    ensures forall m | m in members && m in clients :: MemberEntry(clients[m].username, m) in r
  {
    if |members| == 0 then []
    else
      var m := members[0];
      assert forall x | x in members :: x == m || x in members[1..];
      (if m in clients then [MemberEntry(clients[m].username, m)] else []) + LiveMembers(members[1..], clients)
  }

  /** `LiveMembers` is a list comprehension: it keeps one entry per listed
      occurrence of a live id, in list order. A list splits into the entries
      of its parts, and a single id yields its own entry when it is live and
      nothing otherwise; together these fix the result for every list. */
  lemma {:induction false} LiveMembersSplits(a: seq<ClientId>, b: seq<ClientId>, clients: map<ClientId, Session>)
    ensures LiveMembers(a + b, clients) == LiveMembers(a, clients) + LiveMembers(b, clients)
    ensures |a| == 1 ==>
      LiveMembers(a, clients) == if a[0] in clients then [MemberEntry(clients[a[0]].username, a[0])] else []
  {
    if |a| == 0 {
      assert a + b == b;
    } else {
      var m, tail := a[0], a[1..];
      var head := if m in clients then [MemberEntry(clients[m].username, m)] else [];
      assert LiveMembers(a, clients) == head + LiveMembers(tail, clients) by {
        assert a == [m] + tail;
        LiveMembersCons(m, tail, clients);
      }
      assert LiveMembers(a + b, clients) == head + LiveMembers(tail + b, clients) by {
        assert a + b == [m] + (tail + b);
        LiveMembersCons(m, tail + b, clients);
      }
      if |a| == 1 {
        assert LiveMembers(tail, clients) == [];
      }
      LiveMembersSplits(tail, b, clients);
      ConcatAssoc(head, LiveMembers(tail, clients), LiveMembers(b, clients));
    }
  }

  /** One step of the comprehension. */
  lemma LiveMembersCons(m: ClientId, rest: seq<ClientId>, clients: map<ClientId, Session>)
    ensures LiveMembers([m] + rest, clients) ==
      (if m in clients then [MemberEntry(clients[m].username, m)] else []) + LiveMembers(rest, clients)
  {
    assert ([m] + rest)[0] == m && ([m] + rest)[1..] == rest;
  }

  /** The `valid_members` of update_room_list: the usernames of the listed
      members that are still clients, in list order. */
  function LiveUsernames(members: seq<ClientId>, clients: map<ClientId, Session>): (r: seq<Option<string>>)
    ensures |r| <= |members|
    ensures forall m | m in members && m in clients :: clients[m].username in r
    ensures forall u | u in r :: exists m | m in members && m in clients :: clients[m].username == u
    ensures |r| == |LiveMembers(members, clients)|
    ensures forall i | 0 <= i < |r| :: r[i] == LiveMembers(members, clients)[i].username
  {
    if |members| == 0 then []
    else
      var m := members[0];
      assert forall x | x in members :: x == m || x in members[1..];
      var rest := LiveUsernames(members[1..], clients);
      var head := if m in clients then [MemberEntry(clients[m].username, m)] else [];
      assert LiveMembers(members, clients) == head + LiveMembers(members[1..], clients);
      var r := (if m in clients then [clients[m].username] else []) + rest;
      NamesConcat(if m in clients then [clients[m].username] else [], head, rest, LiveMembers(members[1..], clients));
      NamesOfLiveMembers(members, clients, r);
      r
  }

  /** Position-wise names of two entry lists concatenate. */
  lemma NamesConcat(r1: seq<Option<string>>, e1: seq<MemberEntry>, r2: seq<Option<string>>, e2: seq<MemberEntry>)
    requires |r1| == |e1| && forall i | 0 <= i < |r1| :: r1[i] == e1[i].username
    requires |r2| == |e2| && forall i | 0 <= i < |r2| :: r2[i] == e2[i].username
    ensures |r1 + r2| == |e1 + e2|
    ensures forall i | 0 <= i < |r1 + r2| :: (r1 + r2)[i] == (e1 + e2)[i].username
  {
  }

  /** A list holding, position by position, the names of `LiveMembers` has
      the name of every live listed member and no other name. */
  lemma NamesOfLiveMembers(members: seq<ClientId>, clients: map<ClientId, Session>, r: seq<Option<string>>)
    requires |r| == |LiveMembers(members, clients)|
    requires forall i | 0 <= i < |r| :: r[i] == LiveMembers(members, clients)[i].username
    ensures |r| <= |members|
    ensures forall m | m in members && m in clients :: clients[m].username in r
    ensures forall u | u in r :: exists m | m in members && m in clients :: clients[m].username == u
  {
    var lm := LiveMembers(members, clients);
    forall m | m in members && m in clients
      ensures clients[m].username in r
    {
      var i :| 0 <= i < |lm| && lm[i] == MemberEntry(clients[m].username, m);
      assert r[i] == clients[m].username;
    }
    forall u | u in r
      ensures exists m | m in members && m in clients :: clients[m].username == u
    {
      var i :| 0 <= i < |r| && r[i] == u;
      assert lm[i] in lm;
    }
  }

  /** The `room_list` payload: every room with its live members' names and its password. */
  function Directory(s: State): (d: map<RoomName, RoomEntry>)
    ensures d.Keys == s.rooms.Keys
    ensures forall n | n in d :: d[n].password == s.rooms[n].password
    ensures forall n | n in d :: d[n].members == LiveUsernames(s.rooms[n].members, s.clients)
  {
    map n | n in s.rooms :: RoomEntry(LiveUsernames(s.rooms[n].members, s.clients), s.rooms[n].password)
  }

  /** update_room_members: the room's live member list, sent to each listed
      member whose socket is open (a member listed twice gets it twice). */
  function MembersUpdate(s: State, name: RoomName): (r: seq<Outbound>)
    requires name in s.rooms
    ensures forall o | o in r ::
      o == Send(o.to, RoomUpdate(LiveMembers(s.rooms[name].members, s.clients)))
      && o.to in s.rooms[name].members && o.to in s.clients && s.clients[o.to].open
    ensures forall m | m in s.rooms[name].members && m in s.clients && s.clients[m].open ::
      Send(m, RoomUpdate(LiveMembers(s.rooms[name].members, s.clients))) in r
  {
    Deliver(s.rooms[name].members, s.clients, RoomUpdate(LiveMembers(s.rooms[name].members, s.clients)))
  }

  /** update_room_list: the directory and server name, sent to every client
      with an open socket in the order the clients connected. */
  function RoomListUpdate(s: State): (r: seq<Outbound>)
    ensures forall o | o in r ::
      o == Send(o.to, RoomList(Directory(s), s.cfg.serverName)) && o.to in s.clients && s.clients[o.to].open
    ensures forall c | c in s.order && c in s.clients && s.clients[c].open ::
      Send(c, RoomList(Directory(s), s.cfg.serverName)) in r
  {
    Deliver(s.order, s.clients, RoomList(Directory(s), s.cfg.serverName))
  }
}

=== FILE: invariants.dfy ===
/** Room membership as the server intends it: every id a room lists is a
    live session that says it is in that room, and every session in a room
    is listed there exactly once. The handlers keep this, except where the
    server itself breaks it (a second join, deleting an occupied room). */
module Invariants {
  import opened Base
  import opened Model
  import opened Fanout
  import opened Sessions
  import opened Rooms

  /** The session of `c` names a room that exists and lists `c` exactly once
      (and the name is truthy, so removal will look at it). */
  predicate Seated(s: State, c: ClientId)
    requires c in s.clients && s.clients[c].room.Some?
  {
    var n := s.clients[c].room.value;
    n != "" && n in s.rooms && multiset(s.rooms[n].members)[c] == 1
  }

  /** Every id a room lists is a live session that names that room. */
  predicate MembersLive(s: State) {
    forall n, m | n in s.rooms && m in s.rooms[n].members :: m in s.clients && s.clients[m].room == Some(n)
  }

  /** Every session in a room is seated there. */
  predicate AllSeated(s: State) {
    forall c | c in s.clients && s.clients[c].room.Some? :: Seated(s, c)
  }

  predicate Consistent(s: State) {
    MembersLive(s) && AllSeated(s)
  }

  /** Taking one session out of `clients` and one occurrence of its id out
      of its room keeps the membership consistent. */
  lemma {:induction false} LeaveKeeps(s: State, t: State, id: ClientId)
    requires Consistent(s) && id in s.clients
    requires t.clients == s.clients - {id}
    requires t.rooms.Keys == s.rooms.Keys
    requires forall n | n in s.rooms ::
      multiset(t.rooms[n].members) ==
        if s.clients[id].room == Some(n) then multiset(s.rooms[n].members) - multiset{id} else multiset(s.rooms[n].members)
    ensures Consistent(t)
  {
    forall n, m | n in t.rooms && m in t.rooms[n].members
      ensures m in t.clients && t.clients[m].room == Some(n)
    {
      LeaveKeepsMember(s, t, id, n, m);
    }
    forall c | c in t.clients && t.clients[c].room.Some?
      ensures Seated(t, c)
    {
      assert Seated(s, c);
    }
  }

  lemma LeaveKeepsMember(s: State, t: State, id: ClientId, n: RoomName, m: ClientId)
    requires Consistent(s) && id in s.clients
    requires t.clients == s.clients - {id}
    requires n in s.rooms && n in t.rooms
    requires multiset(t.rooms[n].members) ==
        if s.clients[id].room == Some(n) then multiset(s.rooms[n].members) - multiset{id} else multiset(s.rooms[n].members)
    requires m in t.rooms[n].members
    ensures m in t.clients && t.clients[m].room == Some(n)
  {
    var before := multiset(s.rooms[n].members);
    var after := multiset(t.rooms[n].members);
    assert after[m] > 0;
    assert after[m] <= before[m];
    assert m in s.rooms[n].members;
    if s.clients[id].room == Some(n) {
      assert Seated(s, id);
      assert after[id] == 0;
    }
  }

  /** With consistent membership remove_client_from_room never raises, and
      the membership stays consistent. */
  lemma RemoveClientConsistent(s: State, id: ClientId)
    requires Consistent(s)
    ensures RemoveClient(s, id).Completed?
    ensures Consistent(RemoveClient(s, id).state)
  {
    var r := RemoveClient(s, id);
    if id in s.clients {
      var prev := s.clients[id].room;
      if prev.Some? {
        assert Seated(s, id);
        assert multiset(s.rooms[prev.value].members)[id] == 1;
        assert id in s.rooms[prev.value].members;
      }
      assert r.Completed?;
      forall n | n in s.rooms
        ensures multiset(r.state.rooms[n].members) ==
          if prev == Some(n) then multiset(s.rooms[n].members) - multiset{id} else multiset(s.rooms[n].members)
      {
      }
      LeaveKeeps(s, r.state, id);
    }
  }

  /** Moving a session into `target` (from its previous room, if any): the
      target lists it once more, the previous room once less, every other
      room and every other session keeps its membership. */
  lemma {:induction false} MoveKeeps(s: State, t: State, id: ClientId, target: RoomName)
    requires Consistent(s) && id in s.clients
    requires s.clients[id].room != Some(target) && target != ""
    requires MoveShape(s, t, id, target)
    ensures Consistent(t)
  {
    var prev := s.clients[id].room;
    if prev.Some? {
      assert Seated(s, id);
    }
    MoveKeepsMembers(s, t, id, target);
    MoveKeepsSeats(s, t, id, target);
  }

  /** The members room `n` lists after moving `id` into `target`: the target
      gains `id` at the end, the previous room loses its first `id`, every
      other room is unchanged. */
  predicate RoomMoved(s: State, id: ClientId, target: RoomName, n: RoomName, after: seq<ClientId>)
    requires id in s.clients
  {
    if n == target then after == MembersOf(s, n) + [id]
    else if s.clients[id].room == Some(n) then id in MembersOf(s, n) && after == RemoveFirst(MembersOf(s, n), id)
    else after == MembersOf(s, n)
  }

  /** The sessions and rooms after moving `id` into `target`. */
  predicate MoveShape(s: State, t: State, id: ClientId, target: RoomName)
    requires id in s.clients
  {
    && t.clients.Keys == s.clients.Keys && t.clients[id].room == Some(target)
    && (forall c | c in s.clients && c != id :: t.clients[c].room == s.clients[c].room)
    && t.rooms.Keys == s.rooms.Keys + {target}
    && (forall n | n in t.rooms :: RoomMoved(s, id, target, n, t.rooms[n].members))
  }

  /** The mover was seated once in its previous room, if any. */
  predicate SeatedBefore(s: State, id: ClientId)
    requires id in s.clients
  {
    s.clients[id].room.Some? ==> multiset(MembersOf(s, s.clients[id].room.value))[id] == 1
  }

  lemma MoveKeepsMembers(s: State, t: State, id: ClientId, target: RoomName)
    requires MembersLive(s) && id in s.clients && SeatedBefore(s, id)
    requires MoveShape(s, t, id, target)
    ensures MembersLive(t)
  {
    forall n, m | n in t.rooms && m in t.rooms[n].members
      ensures m in t.clients && t.clients[m].room == Some(n)
    {
      MoveKeepsMember(s, t, id, target, n, m);
    }
  }

  lemma MoveKeepsSeats(s: State, t: State, id: ClientId, target: RoomName)
    requires AllSeated(s) && id in s.clients && id !in MembersOf(s, target) && target != ""
    requires MoveShape(s, t, id, target)
    ensures AllSeated(t)
  {
    forall c | c in t.clients && t.clients[c].room.Some?
      ensures Seated(t, c)
    {
      if c == id {
        MoveSeatsMover(s, t, id, target);
      } else {
        MoveKeepsSeat(s, t, id, target, c);
      }
    }
  }

  lemma MoveKeepsMember(s: State, t: State, id: ClientId, target: RoomName, n: RoomName, m: ClientId)
    requires MembersLive(s) && id in s.clients && SeatedBefore(s, id)
    requires MoveShape(s, t, id, target)
    requires n in t.rooms && m in t.rooms[n].members
    ensures m in t.clients && t.clients[m].room == Some(n)
  {
    var before := MembersOf(s, n);
    var after := t.rooms[n].members;
    assert RoomMoved(s, id, target, n, after);
    if n == target {
      assert m == id || m in before;
    } else if s.clients[id].room == Some(n) {
      assert multiset(after)[m] == (multiset(before) - multiset{id})[m];
      assert m != id && m in before;
    } else {
      assert m in before;
    }
  }

  lemma MoveSeatsMover(s: State, t: State, id: ClientId, target: RoomName)
    requires id in s.clients && id !in MembersOf(s, target) && target != ""
    requires MoveShape(s, t, id, target)
    ensures Seated(t, id)
  {
    assert RoomMoved(s, id, target, target, t.rooms[target].members);
    assert multiset(t.rooms[target].members) == multiset(MembersOf(s, target)) + multiset{id};
  }

  lemma MoveKeepsSeat(s: State, t: State, id: ClientId, target: RoomName, c: ClientId)
    requires AllSeated(s) && id in s.clients && c != id
    requires MoveShape(s, t, id, target)
    requires c in t.clients && t.clients[c].room.Some?
    ensures Seated(t, c)
  {
    var n := t.clients[c].room.value;
    assert Seated(s, c);
    var before := MembersOf(s, n);
    var after := t.rooms[n].members;
    assert RoomMoved(s, id, target, n, after);
    if n == target {
      assert multiset(after) == multiset(before) + multiset{id};
    } else if s.clients[id].room == Some(n) {
      assert multiset(after) == multiset(before) - multiset{id};
    }
  }

  /** The rooms of handle_join, for a session in no room, are the move
      into the target. */
  lemma EnterIsMove(s: State, id: ClientId, target: RoomName)
    requires id in s.clients && s.clients[id].room.None?
    ensures forall n | n in Enter(s.rooms, target, id) ::
      RoomMoved(s, id, target, n, Enter(s.rooms, target, id)[n].members)
  {
    var rooms := Enter(s.rooms, target, id);
    assert rooms[target].members == MembersOf(s, target) + [id];
  }

  /** A first join (the session is in no room yet) into a named room keeps
      membership consistent. */
  lemma JoinConsistent(s: State, id: ClientId, username: string, uid: Uid, room: Option<RoomName>, password: Option<string>)
    requires Consistent(s) && id in s.clients && s.clients[id].room.None?
    requires JoinTarget(room) != ""
    ensures Consistent(Join(s, id, username, uid, room, password).state)
  {
    if Admitted(s.cfg, password) {
      JoinAdmittedConsistent(s, id, username, uid, room, password);
    } else {
      assert Join(s, id, username, uid, room, password).state == s;
    }
  }

  lemma JoinAdmittedConsistent(s: State, id: ClientId, username: string, uid: Uid, room: Option<RoomName>, password: Option<string>)
    requires Consistent(s) && id in s.clients && s.clients[id].room.None?
    requires JoinTarget(room) != "" && Admitted(s.cfg, password)
    ensures Consistent(Join(s, id, username, uid, room, password).state)
  {
    EnterKeeps(s, Join(s, id, username, uid, room, password).state, id, JoinTarget(room));
  }

  lemma EnterKeeps(s: State, t: State, id: ClientId, target: RoomName)
    requires Consistent(s) && id in s.clients && s.clients[id].room.None? && target != ""
    requires t.rooms == Enter(s.rooms, target, id)
    requires id in t.clients && t.clients == s.clients[id := t.clients[id]] && t.clients[id].room == Some(target)
    ensures Consistent(t)
  {
    EnterIsMove(s, id, target);
    MoveKeeps(s, t, id, target);
  }

  /** handle_join does not leave the previous room: a session that is
      already in a room and joins again is listed twice in one room or in
      two rooms at once, so membership is no longer consistent. */
  lemma RejoinBreaksConsistency(s: State, id: ClientId, username: string, uid: Uid, room: Option<RoomName>, password: Option<string>)
    requires Consistent(s) && id in s.clients && s.clients[id].room.Some?
    requires Admitted(s.cfg, password)
    ensures !Consistent(Join(s, id, username, uid, room, password).state)
  {
    var t := Join(s, id, username, uid, room, password).state;
    var prev := s.clients[id].room.value;
    var target := JoinTarget(room);
    assert Seated(s, id);
    assert id in s.rooms[prev].members;
    if prev == target {
      assert t.rooms[target].members == s.rooms[target].members + [id];
      assert multiset(t.rooms[target].members)[id] == 2;
      assert !Seated(t, id);
    } else {
      assert t.rooms[prev] == s.rooms[prev];
      assert id in t.rooms[prev].members && t.clients[id].room != Some(prev);
    }
  }

  /** The rooms of handle_switch_room are the move into the target. */
  lemma MoveIsMove(s: State, id: ClientId, target: RoomName)
    requires Consistent(s) && id in s.clients
    requires target in s.rooms && s.clients[id].room != Some(target)
    ensures var prev := s.clients[id].room;
      Truthy(prev) ==> prev.value in s.rooms
    ensures var prev := s.clients[id].room;
      (Truthy(prev) ==> prev.value in s.rooms) &&
      forall n | n in Move(s.rooms, prev, target, id) ::
        RoomMoved(s, id, target, n, Move(s.rooms, prev, target, id)[n].members)
  {
    var prev := s.clients[id].room;
    if prev.Some? {
      assert Seated(s, id);
      assert id in s.rooms[prev.value].members;
    }
  }

  /** A switch into a named room keeps membership consistent, and with
      consistent membership it never raises. */
  lemma SwitchRoomConsistent(s: State, id: ClientId, target: RoomName, password: Option<string>)
    requires Consistent(s) && id in s.clients && target != ""
    ensures SwitchRoom(s, id, target, password).Completed?
    ensures Consistent(SwitchRoom(s, id, target, password).state)
  {
    if SwitchGates(s, id, target, password) {
      SwitchAcceptedConsistent(s, id, target, password);
    } else {
      assert SwitchRoom(s, id, target, password).state == s;
    }
  }

  lemma SwitchAcceptedConsistent(s: State, id: ClientId, target: RoomName, password: Option<string>)
    requires Consistent(s) && id in s.clients && target != ""
    requires SwitchGates(s, id, target, password)
    ensures SwitchRoom(s, id, target, password).Completed?
    ensures Consistent(SwitchRoom(s, id, target, password).state)
  {
    MoveIsMove(s, id, target);
    SwitchKeeps(s, SwitchRoom(s, id, target, password).state, id, target);
  }

  lemma SwitchKeeps(s: State, t: State, id: ClientId, target: RoomName)
    requires Consistent(s) && id in s.clients && target != ""
    requires target in s.rooms && s.clients[id].room != Some(target)
    requires Truthy(s.clients[id].room) ==> s.clients[id].room.value in s.rooms
    requires t.rooms == Move(s.rooms, s.clients[id].room, target, id)
    requires t.clients == s.clients[id := s.clients[id].(room := Some(target))]
    ensures Consistent(t)
  {
    MoveIsMove(s, id, target);
    assert t.clients.Keys == s.clients.Keys && t.clients[id].room == Some(target);
    assert forall c | c in s.clients && c != id :: t.clients[c].room == s.clients[c].room;
    assert t.rooms.Keys == s.rooms.Keys + {target};
    MoveKeeps(s, t, id, target);
  }

  /** Adding empty rooms and changing passwords, with the sessions'
      rooms untouched, keeps membership consistent. */
  lemma {:induction false} SameMembersKeeps(s: State, t: State)
    requires Consistent(s)
    requires t.clients.Keys == s.clients.Keys
    requires forall c | c in s.clients :: t.clients[c].room == s.clients[c].room
    requires forall n | n in s.rooms :: n in t.rooms && t.rooms[n].members == s.rooms[n].members
    requires forall n | n in t.rooms && n !in s.rooms :: t.rooms[n].members == []
    ensures Consistent(t)
  {
    forall n, m | n in t.rooms && m in t.rooms[n].members
      ensures m in t.clients && t.clients[m].room == Some(n)
    {
      assert n in s.rooms;
    }
    forall c | c in t.clients && t.clients[c].room.Some?
      ensures Seated(t, c)
    {
      assert Seated(s, c);
    }
  }

  /** handle_create_room adds only empty rooms. */
  lemma CreateRoomConsistent(s: State, id: ClientId, name: RoomName, password: Option<string>)
    requires Consistent(s) && id in s.clients
    ensures Consistent(CreateRoom(s, id, name, password).state)
  {
    var t := CreateRoom(s, id, name, password).state;
    SameMembersKeeps(s, t);
  }

  /** handle_edit_room changes only a password. */
  lemma EditRoomConsistent(s: State, id: ClientId, name: RoomName, password: Option<string>)
    requires Consistent(s) && id in s.clients
    ensures Consistent(EditRoom(s, id, name, password).state)
  {
    var t := EditRoom(s, id, name, password).state;
    SameMembersKeeps(s, t);
  }

  /** handle_delete_room keeps membership consistent exactly when the room
      it deletes is empty: the sessions of an occupied room go on naming a
      room that no longer exists. */
  lemma DeleteRoomConsistent(s: State, id: ClientId, name: RoomName)
    requires Consistent(s) && id in s.clients
    ensures Consistent(DeleteRoom(s, id, name).state) <==>
      !(IsAdmin(s, id) == Some(true) && name in s.rooms && s.rooms[name].members != [])
  {
    if IsAdmin(s, id) == Some(true) && name in s.rooms {
      DeletedConsistent(s, id, name);
    } else {
      assert DeleteRoom(s, id, name).state == s;
    }
  }

  lemma DeletedConsistent(s: State, id: ClientId, name: RoomName)
    requires Consistent(s) && id in s.clients
    requires IsAdmin(s, id) == Some(true) && name in s.rooms
    ensures Consistent(DeleteRoom(s, id, name).state) <==> s.rooms[name].members == []
  {
    var t := DeleteRoom(s, id, name).state;
    assert t.clients == s.clients && t.rooms == s.rooms - {name};
    DroppedConsistent(s, t, name);
  }

  /** Dropping one room from the table keeps membership consistent exactly
      when nobody is in it. */
  lemma DroppedConsistent(s: State, t: State, name: RoomName)
    requires Consistent(s) && name in s.rooms
    requires t.clients == s.clients && t.rooms == s.rooms - {name}
    ensures Consistent(t) <==> s.rooms[name].members == []
  {
    if s.rooms[name].members != [] {
      var m := s.rooms[name].members[0];
      assert m in s.rooms[name].members;
      assert Seated(s, m);
      assert !Seated(t, m);
    } else {
      forall c | c in t.clients && t.clients[c].room.Some?
        ensures Seated(t, c)
      {
        assert Seated(s, c);
      }
    }
  }
}

=== FILE: lifecycle.dfy ===
/** When a connection ends cleanly. The `finally` of handler raises only
    when the session names a room whose row is gone, and within one
    connection only a delete_room request removes a row; so a connection
    that sends none always ends with its session removed. */
module Lifecycle {
  import opened Base
  import opened Model
  import opened Sessions
  import opened Rooms
  import opened Traffic
  import opened Moderation
  import opened Dispatch

  /** The session, if any, names no room or a room that exists: the
      condition under which remove_client_from_room completes. */
  predicate Housed(s: State, id: ClientId) {
    id in s.clients && Truthy(s.clients[id].room) ==> s.clients[id].room.value in s.rooms
  }

  /** A housed session's removal never raises. */
  lemma HousedRemoves(s: State, id: ClientId)
    requires Housed(s, id)
    ensures RemoveClient(s, id).Completed?
    ensures id !in RemoveClient(s, id).state.clients
  {
  }

  /** Nothing other than a room deletion can take away the room the session
      stands in. Kick and ban may remove the session itself. */
  lemma ProcessHoused(s: State, id: ClientId, req: Request)
    requires id in s.clients && Housed(s, id) && !req.DeleteChannelReq?
    ensures Housed(Process(s, id, req).state, id)
  {
  }

  /** Kick removes at most the session whose id is the looked-up uid and
      keeps every room. */
  lemma KickHoused(s: State, id: ClientId, username: string)
    requires id in s.clients && Housed(s, id)
    ensures Housed(Kick(s, id, username).state, id)
  {
  }

  /** The ban sweep removes sessions and keeps every room. */
  lemma BanHoused(s: State, id: ClientId, username: string, reason: Option<string>)
    requires id in s.clients && Housed(s, id)
    ensures Housed(Ban(s, id, username, reason).state, id)
  {
  }

  /** One frame other than a room deletion keeps the session housed, and if
      it ends the connection the session is gone. */
  lemma ReceiveHoused(s: State, id: ClientId, frame: Frame)
    requires id in s.clients && Housed(s, id)
    requires !(frame.Text? && frame.request.DeleteChannelReq?)
    ensures Housed(Receive(s, id, frame).state, id)
    ensures Receive(s, id, frame).ended ==> id !in Receive(s, id, frame).state.clients
  {
    var h := Handle(s, id, frame);
    if frame.Text? {
      ProcessHoused(s, id, frame.request);
    }
    assert Housed(h.state, id);
    if h.Raised? {
      HousedRemoves(h.state, id);
    }
  }

  /** A run of frames with no room deletion ends with the session removed. */
  lemma {:induction false} RunCompletes(s: State, id: ClientId, frames: seq<Frame>)
    requires Housed(s, id)
    requires forall i | 0 <= i < |frames| :: !(frames[i].Text? && frames[i].request.DeleteChannelReq?)
    ensures Run(s, id, frames).Completed?
    decreases |frames|
  {
    if id !in s.clients {
    } else if |frames| == 0 {
      HousedRemoves(MarkClosed(s, id), id);
    } else {
      ReceiveHoused(s, id, frames[0]);
      var t := Receive(s, id, frames[0]);
      if !t.ended {
        RunCompletes(t.state, id, frames[1..]);
      }
    }
  }

  /** A connection that never asks to delete a room completes: handler's
      `finally` removes its session whatever its frames do. */
  lemma ConnectionCompletes(s: State, id: ClientId, frames: seq<Frame>)
    requires forall i | 0 <= i < |frames| :: !(frames[i].Text? && frames[i].request.DeleteChannelReq?)
    ensures Connection(s, id, frames).Completed?
    ensures id !in Connection(s, id, frames).state.clients
  {
    RunCompletes(Connect(s, id), id, frames);
  }

  /** The condition above is needed: an admin who joins the Lobby and then
      deletes it leaves its own session stranded, and the connection ends
      with an exception in the cleanup. */
  lemma DeletingOwnRoomStrands()
    ensures Connection(AdminOnly(), "c", [Text(JoinReq("alice", "u0", Some(DefaultRoom), None)), Text(DeleteChannelReq(DefaultRoom))]).Raised?
  {
    var s0 := Connect(AdminOnly(), "c");
    assert s0.clients["c"] == NewSession && s0.users == AdminOnly().users && s0.cfg == AdminOnly().cfg;
    JoinThenDelete(s0);
  }

  /** A fresh session of the admin account "u0" on a server without a
      password joins the Lobby, deletes it and disconnects. */
  lemma JoinThenDelete(s: State)
    requires "c" in s.clients && s.cfg.serverPassword.None?
    requires StoredRole(s.users, "u0") == Some(AdminRole)
    ensures Run(s, "c", [Text(JoinReq("alice", "u0", Some(DefaultRoom), None)), Text(DeleteChannelReq(DefaultRoom))]).Raised?
  {
    var join := Text(JoinReq("alice", "u0", Some(DefaultRoom), None));
    var delete := Text(DeleteChannelReq(DefaultRoom));
    AdminJoins(s);
    DeleteThenLeave(Receive(s, "c", join).state);
    assert [join] + [delete] == [join, delete];
    RunContinues(s, "c", join, [delete]);
  }

  /** An admin seated in the Lobby who deletes it and disconnects is left
      behind by the cleanup. */
  lemma DeleteThenLeave(s: State)
    requires "c" in s.clients && s.clients["c"].room == Some(DefaultRoom) && DefaultRoom in s.rooms
    requires IsAdmin(s, "c") == Some(true)
    ensures Run(s, "c", [Text(DeleteChannelReq(DefaultRoom))]).Raised?
  {
    var delete := Text(DeleteChannelReq(DefaultRoom));
    AdminDeletesOwnRoom(s);
    var t := Receive(s, "c", delete);
    assert Run(t.state, "c", []).Raised?;
    assert [delete] + [] == [delete];
    RunContinues(s, "c", delete, []);
  }

  /** A turn that does not end hands the remaining frames to the next turn. */
  lemma RunContinues(s: State, id: ClientId, frame: Frame, rest: seq<Frame>)
    requires id in s.clients && !Receive(s, id, frame).ended
    ensures Run(s, id, [frame] + rest).Raised? == Run(Receive(s, id, frame).state, id, rest).Raised?
  {
    assert ([frame] + rest)[0] == frame && ([frame] + rest)[1..] == rest;
  }

  /** The admin's join lands it in the Lobby with its stored role. */
  lemma AdminJoins(s: State)
    requires "c" in s.clients && s.cfg.serverPassword.None?
    requires StoredRole(s.users, "u0") == Some(AdminRole)
    ensures var t := Receive(s, "c", Text(JoinReq("alice", "u0", Some(DefaultRoom), None)));
      && !t.ended && "c" in t.state.clients
      && t.state.clients["c"].room == Some(DefaultRoom) && DefaultRoom in t.state.rooms
      && IsAdmin(t.state, "c") == Some(true)
  {
    var req := JoinReq("alice", "u0", Some(DefaultRoom), None);
    var j := Join(s, "c", "alice", "u0", Some(DefaultRoom), None);
    assert j.Completed? && j.state.users == s.users;
    assert j.state.clients["c"].uid == Some("u0") && j.state.clients["c"].room == Some(DefaultRoom);
    assert Process(s, "c", req) == j;
    assert Handle(s, "c", Text(req)) == j;
  }

  /** Deleting the room the admin stands in completes and leaves the
      session naming the deleted room. */
  lemma AdminDeletesOwnRoom(s: State)
    requires "c" in s.clients && s.clients["c"].room == Some(DefaultRoom) && DefaultRoom in s.rooms
    requires IsAdmin(s, "c") == Some(true)
    ensures var t := Receive(s, "c", Text(DeleteChannelReq(DefaultRoom)));
      && !t.ended && "c" in t.state.clients && t.state.clients["c"].room == Some(DefaultRoom)
      && DefaultRoom !in t.state.rooms
  {
    var d := DeleteRoom(s, "c", DefaultRoom);
    assert d.Completed? && d.state.clients == s.clients && DefaultRoom !in d.state.rooms;
    assert Process(s, "c", DeleteChannelReq(DefaultRoom)) == d;
    assert Handle(s, "c", Text(DeleteChannelReq(DefaultRoom))) == d;
  }

  /** A server with no rooms and one admin account, "alice". */
  function AdminOnly(): (s: State)
    ensures s.clients == map[] && s.rooms == map[]
    ensures StoredRole(s.users, "u0") == Some(AdminRole)
  {
    State(Config(None, "PySpeak", "Welcome"), map[], [], map[], [UserRow("u0", "alice", AdminRole)], map[], [], [])
  }
}

=== FILE: model.dfy ===
/** The server's in-memory state once storage and sockets are abstracted:
    the live-session dictionary, the rooms table, the users table, the
    privilege-key table and the two write-only audit tables, plus the
    messages a handler sends. Server/server.py keeps `clients` in a module
    global and the tables in SQLite; here all of it is one immutable value. */
module Model {
  import opened Base

  type ClientId = string
  type Uid = string
  type RoomName = string
  type Role = string

  /** Room joined when a join request names none, and the room the bootstrap creates. */
  const DefaultRoom: RoomName := "Lobby"
  /** Role given to an account the first time its uid joins. */
  const UserRole: Role := "user"
  const AdminRole: Role := "admin"
  const SuperAdminRole: Role := "superadmin"
  /** Ban reason recorded when the request carries none. */
  const DefaultBanReason: string := "No reason provided"

  /** Admin and superadmin are the privileged roles; a missing role is never privileged. */
  predicate Privileged(role: Option<Role>) {
    role == Some(AdminRole) || role == Some(SuperAdminRole)
  }

  /** Settings read once from the configuration file. */
  datatype Config = Config(serverPassword: Option<string>, serverName: string, welcome: string)

  /** One entry of `clients`. Before a join only `room`, `username` and the
      socket exist; `uid` and `role` are `None` while their keys are absent. */
  datatype Session = Session(
    room: Option<RoomName>,
    username: Option<string>,
    uid: Option<Uid>,
    role: Option<Role>,
    open: bool)

  /** A fresh connection: no room, no name, no identity, socket open. */
  const NewSession: Session := Session(None, None, None, None, true)

  /** A row of the rooms table; `members` is the decoded JSON list of client ids. */
  datatype Room = Room(password: Option<string>, members: seq<ClientId>)

  /** A row of the users table. */
  datatype UserRow = UserRow(uid: Uid, username: string, role: Role)

  /** Audit rows; `author` and `user` are positions in the users table. */
  datatype ChatRecord = ChatRecord(room: RoomName, author: nat, text: string)
  datatype BanRecord = BanRecord(user: nat, reason: string)

  datatype State = State(
    cfg: Config,
    clients: map<ClientId, Session>,
    order: seq<ClientId>,             // insertion order of `clients`
    rooms: map<RoomName, Room>,
    users: seq<UserRow>,              // rows in insertion order
    keys: map<string, Role>,          // privilege key -> role it grants
    chats: seq<ChatRecord>,
    bans: seq<BanRecord>)

  /** `order` lists each key of `clients` exactly once, as a Python dict
      iterates them. */
  predicate Registered(s: State) {
    && NoDup(s.order)
    && (forall c | c in s.order :: c in s.clients)
    && (forall c | c in s.clients :: c in s.order)
  }

  /** Opaque audio payload, relayed byte for byte. */
  type Payload = seq<int>

  datatype Action = CreateRooms | EditRooms | DeleteRooms | BanUsers | KickUsers

  /** The `error` replies, one per distinct message the server builds. */
  datatype ErrorKind =
    | BadServerPassword
    | AlreadyInRoom(room: RoomName)
    | NoSuchRoom(room: RoomName)
    | Forbidden(action: Action)
    | RoomExists(room: RoomName)
    | NoSuchUser(username: string)
    | BadPrivilegeKey

  /** The `info` replies. */
  datatype InfoKind =
    | ServerWelcome(text: string)
    | RoomWelcome(room: RoomName, username: string, role: Role)
    | RoomCreated(room: RoomName)
    | RoomEdited(room: RoomName)
    | RoomDeleted(room: RoomName)
    | UserBanned(username: string)
    | UserKicked(username: string)
    | RoleGranted(role: Role)

  datatype MemberEntry = MemberEntry(username: Option<string>, id: ClientId)
  datatype RoomEntry = RoomEntry(members: seq<Option<string>>, password: Option<string>)

  datatype Msg =
    | Error(err: ErrorKind)
    | Info(info: InfoKind)
    | RoomUpdate(entries: seq<MemberEntry>)
    | RoomList(directory: map<RoomName, RoomEntry>, serverName: string)
    | Talking(speaker: Option<string>, status: bool)
    | Chat(author: Option<string>, text: string)
    | Private(sender: Option<string>, text: string)
    | PasswordRequired(room: RoomName)
    | SwitchedRoom(room: RoomName)
    | Audio(payload: Payload)

  /** One effect on a socket: a message sent to it, or the socket closed. */
  datatype Outbound = Send(to: ClientId, msg: Msg) | Close(to: ClientId)

  /** Result of one handler. `Raised` means a Python exception escaped the
      handler after the effects in `state` and `out` had already happened. */
  datatype Step =
    | Completed(state: State, out: seq<Outbound>)
    | Raised(state: State, out: seq<Outbound>)

  /** A single reply to the requester and no change of state. */
  function Reply(s: State, id: ClientId, m: Msg): Step {
    Completed(s, [Send(id, m)])
  }

  /** Members of a room, or none when the room does not exist. */
  function MembersOf(s: State, name: RoomName): seq<ClientId> {
    if name in s.rooms then s.rooms[name].members else []
  }

  /** The first users row with this uid, if any. */
  function UserByUid(users: seq<UserRow>, uid: Uid): Option<nat> {
    FirstIndex(users, (u: UserRow) => u.uid == uid)
  }

  /** The first users row with this username, if any. */
  function UserByName(users: seq<UserRow>, name: string): Option<nat> {
    FirstIndex(users, (u: UserRow) => u.username == name)
  }

  /** `get_user_role`: the stored role of the uid, `None` without a row. */
  function StoredRole(users: seq<UserRow>, uid: Uid): (r: Option<Role>)
    ensures r.Some? <==> exists i | 0 <= i < |users| :: users[i].uid == uid
    ensures r.Some? ==> exists i | 0 <= i < |users| :: users[i].uid == uid && users[i].role == r.value
  {
    match UserByUid(users, uid)
    case Some(i) => Some(users[i].role)
    case None => None
  }

  /** The role update of the users table: every row of that uid gets the role. */
  function SetRole(users: seq<UserRow>, uid: Uid, role: Role): (r: seq<UserRow>)
    ensures |r| == |users|
    ensures forall i | 0 <= i < |r| :: r[i].uid == users[i].uid && r[i].username == users[i].username
    ensures forall i | 0 <= i < |r| :: r[i].role == (if users[i].uid == uid then role else users[i].role)
  {
    seq(|users|, i requires 0 <= i < |users| =>
      if users[i].uid == uid then users[i].(role := role) else users[i])
  }

  /** Granting a role through `SetRole` makes it the stored role of that uid. */
  lemma SetRoleIsStored(users: seq<UserRow>, uid: Uid, role: Role)
    ensures StoredRole(users, uid).Some? ==> StoredRole(SetRole(users, uid, role), uid) == Some(role)
  {
    if StoredRole(users, uid).Some? {
      var i :| 0 <= i < |users| && users[i].uid == uid;
      assert SetRole(users, uid, role)[i].uid == uid;
    }
  }

  /** The socket of session `id` is closed; nothing else changes. */
  function MarkClosed(s: State, id: ClientId): (r: State)
    ensures r.clients.Keys == s.clients.Keys
    ensures id in s.clients ==> !r.clients[id].open
    ensures id in s.clients ==> r.clients[id] == s.clients[id].(open := false)
    ensures forall c | c in s.clients && c != id :: r.clients[c] == s.clients[c]
    ensures r == s.(clients := r.clients)
  {
    if id in s.clients then s.(clients := s.clients[id := s.clients[id].(open := false)]) else s
  }
}

=== FILE: moderation.dfy ===
/** Role changes and removal of other users: use_privilege_key, kick and
    ban. Kick and ban are gated by the stored role (is_admin). */
module Moderation {
  import opened Base
  import opened Model
  import opened Sessions
  import opened Rooms

  /** handle_use_privilege_key. An unknown key is an error reply and changes
      nothing. A known key sets the role of the session's uid in the users
      table AND the role cached on the session (a session that never joined
      has no uid, and the lookup raises KeyError). */
  function UsePrivilegeKey(s: State, id: ClientId, key: string): (r: Step)
    requires id in s.clients
    ensures Registered(s) ==> Registered(r.state)
    ensures key !in s.keys ==> r == Completed(s, [Send(id, Error(BadPrivilegeKey))])
    ensures key in s.keys && s.clients[id].uid.None? ==> r == Raised(s, [])
    ensures key in s.keys && s.clients[id].uid.Some? ==>
      var uid := s.clients[id].uid.value;
      && r.Completed?
      && r.state == s.(users := r.state.users, clients := r.state.clients)
      && r.state.users == SetRole(s.users, uid, s.keys[key])
      && (StoredRole(s.users, uid).Some? ==> StoredRole(r.state.users, uid) == Some(s.keys[key]))
      && r.state.clients == s.clients[id := s.clients[id].(role := Some(s.keys[key]))]
      && r.out == [Send(id, Info(RoleGranted(s.keys[key])))]
  {
    if key !in s.keys then Reply(s, id, Error(BadPrivilegeKey))
    else
      match s.clients[id].uid
      case None => Raised(s, [])
      case Some(uid) =>
        var role := s.keys[key];
        SetRoleIsStored(s.users, uid, role);
        var s' := s.(users := SetRole(s.users, uid, role), clients := s.clients[id := s.clients[id].(role := Some(role))]);
        Completed(s', [Send(id, Info(RoleGranted(role)))])
  }

  /** handle_kick. Past the stored-role gate, the name is resolved to a uid
      through the users table and success is reported. The uid is then
      looked up among the client keys, which are connection ids, so usually
      no session is touched. If one does match, remove_client_from_room
      deletes it and the following `clients[uid]` raises KeyError, so the
      socket is never closed and the kicking handler ends with an exception. */
  function Kick(s: State, id: ClientId, username: string): (r: Step)
    requires id in s.clients
    ensures Registered(s) ==> Registered(r.state)
    ensures r.Raised? && r.out == [] <==> IsAdmin(s, id).None?
    ensures IsAdmin(s, id).None? ==> r.state == s
    ensures IsAdmin(s, id) == Some(false) ==> r == Completed(s, [Send(id, Error(Forbidden(KickUsers)))])
    ensures IsAdmin(s, id) == Some(true) && UserByName(s.users, username).None? ==>
      r == Completed(s, [Send(id, Error(NoSuchUser(username)))])
    ensures IsAdmin(s, id) == Some(true) && UserByName(s.users, username).Some? ==>
      var uid := s.users[UserByName(s.users, username).value].uid;
      && |r.out| >= 1 && r.out[0] == Send(id, Info(UserKicked(username)))
      && (uid !in s.clients ==> r == Completed(s, [Send(id, Info(UserKicked(username)))]))
      && (uid in s.clients ==> r.Raised? && forall o | o in r.out :: !o.Close?)
    ensures IsAdmin(s, id) == Some(true) && UserByName(s.users, username).Some? ==>
      var uid := s.users[UserByName(s.users, username).value].uid;
      uid in s.clients ==> r.state == RemoveClient(s, uid).state
  {
    match IsAdmin(s, id)
    case None => Raised(s, [])
    case Some(false) => Reply(s, id, Error(Forbidden(KickUsers)))
    case Some(true) =>
      match UserByName(s.users, username)
      case None => Reply(s, id, Error(NoSuchUser(username)))
      case Some(row) =>
        var uid := s.users[row].uid;
        var notice := [Send(id, Info(UserKicked(username)))];
        if uid in s.clients then
          var rm := RemoveClient(s, uid);
          Raised(rm.state, notice + rm.out)
        else Completed(s, notice)
  }

  /** A session the ban loop is looking for. */
  predicate Named(s: State, c: ClientId, username: string) {
    c in s.clients && s.clients[c].username == Some(username)
  }

  /** What handle_ban does before its loop over sessions: either it is done
      (gate failed, unknown user) or it has recorded the ban and replied. */
  datatype BanStart = Stop(step: Step) | Sweep(state: State, out: seq<Outbound>)

  /** The part of handle_ban before the loop: the stored-role gate, the
      users-table lookup of the name, the ban record (with "No reason
      provided" when no reason is given) and the confirmation. */
  function StartBan(s: State, id: ClientId, username: string, reason: Option<string>): (r: BanStart)
    requires id in s.clients
    ensures IsAdmin(s, id).None? ==> r == Stop(Raised(s, []))
    ensures IsAdmin(s, id) == Some(false) ==> r == Stop(Completed(s, [Send(id, Error(Forbidden(BanUsers)))]))
    ensures IsAdmin(s, id) == Some(true) && UserByName(s.users, username).None? ==>
      r == Stop(Completed(s, [Send(id, Error(NoSuchUser(username)))]))
    ensures IsAdmin(s, id) == Some(true) && UserByName(s.users, username).Some? ==>
      r == Sweep(s.(bans := s.bans + [BanRecord(UserByName(s.users, username).value, reason.GetOr(DefaultBanReason))]),
                 [Send(id, Info(UserBanned(username)))])
  {
    match IsAdmin(s, id)
    case None => Stop(Raised(s, []))
    case Some(false) => Stop(Reply(s, id, Error(Forbidden(BanUsers))))
    case Some(true) =>
      match UserByName(s.users, username)
      case None => Stop(Reply(s, id, Error(NoSuchUser(username))))
      case Some(row) =>
        Sweep(s.(bans := s.bans + [BanRecord(row, reason.GetOr(DefaultBanReason))]), [Send(id, Info(UserBanned(username)))])
  }

  /** `out` happened before `step`. */
  function After(out: seq<Outbound>, step: Step): (r: Step)
    ensures r.state == step.state && r.out == out + step.out && (r.Completed? <==> step.Completed?)
  {
    match step
    case Completed(st, o) => Completed(st, out + o)
    case Raised(st, o) => Raised(st, out + o)
  }

  /** The loop of handle_ban as written: a direct iteration over the live
      session dictionary, calling remove_client_from_room inside. The first session with the name
      is removed and its socket closed; the removal changed the dictionary's
      size, so the next step of the iteration raises RuntimeError. */
  function BanSweepAsWritten(s: State, username: string): (r: Step)
    ensures r.Completed? <==> forall i | 0 <= i < |s.order| :: !Named(s, s.order[i], username)
    ensures r.Completed? ==> r == Completed(s, [])
    ensures r.state.clients == s.clients || exists c | Named(s, c, username) :: r.state.clients == s.clients - {c}
  {
    match FirstIndex(s.order, (c: ClientId) => Named(s, c, username))
    case None => Completed(s, [])
    case Some(i) =>
      var c := s.order[i];
      var rm := RemoveClient(s, c);
      if rm.Raised? then rm else Raised(rm.state, rm.out + [Close(c)])
  }

  /** handle_ban as written. */
  function BanAsWritten(s: State, id: ClientId, username: string, reason: Option<string>): (r: Step)
    requires id in s.clients
    ensures StartBan(s, id, username, reason).Stop? ==> r == StartBan(s, id, username, reason).step
    ensures StartBan(s, id, username, reason).Sweep? ==>
      var st := StartBan(s, id, username, reason).state;
      r.Raised? <==> exists i | 0 <= i < |st.order| :: Named(st, st.order[i], username)
  {
    match StartBan(s, id, username, reason)
    case Stop(step) => step
    case Sweep(st, out) => After(out, BanSweepAsWritten(st, username))
  }

  /** The sessions carrying the name, in dictionary order: the snapshot the
      corrected loop iterates over. */
  function Matching(s: State, username: string, ids: seq<ClientId>): (r: seq<ClientId>)
    ensures forall c | c in r :: c in ids && Named(s, c, username)
    ensures forall c | c in ids && Named(s, c, username) :: c in r
  {
    if |ids| == 0 then []
    else
      assert forall x | x in ids :: x == ids[0] || x in ids[1..];
      (if Named(s, ids[0], username) then [ids[0]] else []) + Matching(s, username, ids[1..])
  }

  /** remove_client_from_room will not raise for this id. */
  predicate Removable(s: State, c: ClientId) {
    c in s.clients && Truthy(s.clients[c].room) ==> s.clients[c].room.value in s.rooms
  }

  /** The corrected loop of handle_ban: over a snapshot of the matching ids,
      remove each session and close its socket. A removal that raises (its
      room was deleted) still ends the handler. */
  function BanSweep(s: State, ids: seq<ClientId>): (r: Step)
    decreases |ids|
    ensures r.state.clients.Keys <= s.clients.Keys
    ensures forall c | c in r.state.clients :: r.state.clients[c] == s.clients[c]
    ensures r.Completed? ==> forall c | c in ids :: c !in r.state.clients
    ensures r.Completed? ==> forall c | c in ids && c in s.clients :: Close(c) in r.out
    ensures forall c | c in s.clients && c !in ids :: c in r.state.clients
    ensures (forall c | c in ids :: Removable(s, c)) ==> r.Completed?
    ensures r.state.rooms.Keys == s.rooms.Keys && r.state.users == s.users && r.state.keys == s.keys
    ensures Registered(s) ==> Registered(r.state)
  {
    if |ids| == 0 then Completed(s, [])
    else
      var c := ids[0];
      assert c in ids;
      var rm := RemoveClient(s, c);
      if rm.Raised? then rm
      else
        assert forall x | x in ids[1..] :: x in ids;
        After(rm.out + [Close(c)], BanSweep(rm.state, ids[1..]))
  }

  /** handle_ban with the loop over a snapshot, the behaviour the rest of
      the model uses. */
  function Ban(s: State, id: ClientId, username: string, reason: Option<string>): (r: Step)
    requires id in s.clients
    ensures Registered(s) ==> Registered(r.state)
    ensures StartBan(s, id, username, reason).Stop? ==> r == StartBan(s, id, username, reason).step
    ensures StartBan(s, id, username, reason).Sweep? ==>
      var st := StartBan(s, id, username, reason).state;
      && r == After(StartBan(s, id, username, reason).out, BanSweep(st, Matching(st, username, st.order)))
      && (r.Completed? ==> forall c | c in st.order :: !Named(r.state, c, username))
      && (forall c | c in s.clients && !Named(s, c, username) :: c in r.state.clients)
  {
    match StartBan(s, id, username, reason)
    case Stop(step) => step
    case Sweep(st, out) => After(out, BanSweep(st, Matching(st, username, st.order)))
  }
}

=== FILE: properties.dfy ===
/** Properties of the server that span handlers: relays stay inside the
    sender's room, a privilege key makes the holder an admin, ban (as
    written and corrected), and consistent membership across a whole turn
    of the connection loop. */
module Properties {
  import opened Base
  import opened Model
  import opened Fanout
  import opened Sessions
  import opened Rooms
  import opened Traffic
  import opened Moderation
  import opened Dispatch
  import opened Invariants

  /** With consistent membership, a session in a room has its members row. */
  lemma SenderSeated(s: State, id: ClientId)
    requires Consistent(s) && id in s.clients && s.clients[id].room.Some?
    ensures SenderRoom(s, id) == s.clients[id].room
    ensures forall m | m in s.rooms[s.clients[id].room.value].members :: m in s.clients
  {
    assert Seated(s, id);
  }

  /** The ids a room lists are exactly the sessions that name the room. */
  lemma ListedIffSeated(s: State, n: RoomName, c: ClientId)
    requires Consistent(s) && n in s.rooms && c in s.clients
    ensures c in s.rooms[n].members <==> s.clients[c].room == Some(n)
  {
    if s.clients[c].room == Some(n) {
      assert Seated(s, c);
      assert multiset(s.rooms[n].members)[c] == 1;
    }
  }

  /** update_room_members with consistent membership: the notice reaches
      exactly the open sessions in the room, each once, and lists every
      session in the room with its name. */
  lemma MembersNoticeStaysInRoom(s: State, n: RoomName)
    requires Consistent(s) && n in s.rooms
    ensures forall o | o in MembersUpdate(s, n) :: o.Send? && o.to in s.clients && s.clients[o.to].room == Some(n)
    ensures forall c | c in s.clients && s.clients[c].room == Some(n) && s.clients[c].open ::
      Send(c, RoomUpdate(LiveMembers(s.rooms[n].members, s.clients))) in MembersUpdate(s, n)
    ensures forall c | c in s.clients && s.clients[c].room == Some(n) ::
      MemberEntry(s.clients[c].username, c) in LiveMembers(s.rooms[n].members, s.clients)
  {
    forall c | c in s.clients
      ensures c in s.rooms[n].members <==> s.clients[c].room == Some(n)
    {
      ListedIffSeated(s, n, c);
    }
  }

  /** handle_audio with consistent membership: the relay runs to the end,
      and the frame reaches exactly the other open sessions of the sender's
      room. */
  lemma AudioStaysInRoom(s: State, id: ClientId, payload: Payload)
    requires Consistent(s) && id in s.clients && s.clients[id].room.Some?
    ensures RelayAudio(s, id, payload).Completed?
    ensures forall o | o in RelayAudio(s, id, payload).out ::
      o.Send? && o.to in s.clients && s.clients[o.to].room == s.clients[id].room && o.to != id
    ensures forall c | c in s.clients && c != id && s.clients[c].room == s.clients[id].room && s.clients[c].open ::
      Send(c, Audio(payload)) in RelayAudio(s, id, payload).out
  {
    SenderSeated(s, id);
    var n := s.clients[id].room.value;
    forall c | c in s.clients
      ensures c in s.rooms[n].members <==> s.clients[c].room == Some(n)
    {
      ListedIffSeated(s, n, c);
    }
  }

  /** handle_talking with consistent membership: the flag reaches exactly
      the open sessions of the sender's room, the sender included. */
  lemma TalkingStaysInRoom(s: State, id: ClientId, status: bool)
    requires Consistent(s) && id in s.clients && s.clients[id].room.Some?
    ensures RelayTalking(s, id, status).Completed?
    ensures forall o | o in RelayTalking(s, id, status).out ::
      o.Send? && o.to in s.clients && s.clients[o.to].room == s.clients[id].room
    ensures forall c | c in s.clients && s.clients[c].room == s.clients[id].room && s.clients[c].open ::
      Send(c, Talking(s.clients[id].username, status)) in RelayTalking(s, id, status).out
  {
    SenderSeated(s, id);
    var n := s.clients[id].room.value;
    forall c | c in s.clients
      ensures c in s.rooms[n].members <==> s.clients[c].room == Some(n)
    {
      ListedIffSeated(s, n, c);
    }
  }

  /** handle_message with consistent membership and a known author: the
      text reaches exactly the open sessions of the sender's room. */
  lemma ChatStaysInRoom(s: State, id: ClientId, text: string)
    requires Consistent(s) && id in s.clients && s.clients[id].room.Some? && AuthorRow(s, id).Some?
    ensures ChatMessage(s, id, text).Completed?
    ensures forall o | o in ChatMessage(s, id, text).out ::
      o.Send? && o.to in s.clients && s.clients[o.to].room == s.clients[id].room
    ensures forall c | c in s.clients && s.clients[c].room == s.clients[id].room && s.clients[c].open ::
      Send(c, Chat(s.clients[id].username, text)) in ChatMessage(s, id, text).out
  {
    SenderSeated(s, id);
    var n := s.clients[id].room.value;
    forall c | c in s.clients
      ensures c in s.rooms[n].members <==> s.clients[c].room == Some(n)
    {
      ListedIffSeated(s, n, c);
    }
  }

  /** A key granting "admin", used by a session whose account exists, makes
      the stored role admin (so is_admin holds) and the cached role admin
      (so room creation is allowed). */
  lemma AdminKeyGrantsAdmin(s: State, id: ClientId, key: string)
    requires id in s.clients && key in s.keys && s.keys[key] == AdminRole
    requires s.clients[id].uid.Some? && StoredRole(s.users, s.clients[id].uid.value).Some?
    ensures IsAdmin(UsePrivilegeKey(s, id, key).state, id) == Some(true)
    ensures Privileged(UsePrivilegeKey(s, id, key).state.clients[id].role)
  {
  }

  /** The gate of room creation reads the role cached on the session, the
      gate of room deletion the stored one: a session whose account was
      demoted after it joined may still create rooms, but not delete them. */
  lemma CachedAndStoredRolesDiffer(s: State, id: ClientId, name: RoomName, password: Option<string>)
    requires id in s.clients && Privileged(s.clients[id].role) && name !in s.rooms
    requires s.clients[id].uid.Some? && StoredRole(s.users, s.clients[id].uid.value) == Some(UserRole)
    ensures CreateRoom(s, id, name, password).out[0] == Send(id, Info(RoomCreated(name)))
    ensures DeleteRoom(s, id, name).out == [Send(id, Error(Forbidden(DeleteRooms)))]
  {
  }

  // ---- Ban ----

  /** As written, ban leaves a session of the banned name behind whenever
      the name has two sessions (the same account connected twice), and
      the handler itself ends with an exception, so the banning admin's
      connection is torn down. */
  lemma BanAsWrittenLeavesSession(s: State, id: ClientId, username: string, reason: Option<string>, c1: ClientId, c2: ClientId)
    requires id in s.clients && IsAdmin(s, id) == Some(true) && UserByName(s.users, username).Some?
    requires c1 != c2 && c1 in s.order && c2 in s.order && Named(s, c1, username) && Named(s, c2, username)
    ensures BanAsWritten(s, id, username, reason).Raised?
    ensures exists c | c in BanAsWritten(s, id, username, reason).state.clients ::
      Named(BanAsWritten(s, id, username, reason).state, c, username)
  {
    var st := StartBan(s, id, username, reason).state;
    var i1 :| 0 <= i1 < |s.order| && s.order[i1] == c1;
    assert st.order[i1] == c1 && Named(st, c1, username);
    var r := BanSweepAsWritten(st, username);
    if r.state.clients == st.clients {
      assert Named(r.state, c1, username);
    } else {
      var c :| Named(st, c, username) && r.state.clients == st.clients - {c};
      if c == c1 {
        assert Named(r.state, c2, username);
      } else {
        assert Named(r.state, c1, username);
      }
    }
  }

  /** A concrete case: admin session "a" bans "bob", who is connected
      twice as "b1" and "b2". As written "b2" survives and the handler
      raises. */
  lemma BanTwoSessionsAsWritten()
    ensures BanAsWritten(TwoBobs(), "a", "bob", None).Raised?
    ensures "b2" in BanAsWritten(TwoBobs(), "a", "bob", None).state.clients
  {
    var s := TwoBobs();
    assert Named(s, "b1", "bob") && !Named(s, "a", "bob");
    assert IsAdmin(s, "a") == Some(true);
    assert UserByName(s.users, "bob") == Some(1);
    var st := StartBan(s, "a", "bob", None).state;
    assert st.clients == s.clients && st.order == s.order;
    assert FirstIndex(st.order, (c: ClientId) => Named(st, c, "bob")) == Some(1);
  }

  /** The same case with the snapshot loop: both sessions go, the admin stays. */
  lemma BanTwoSessionsCorrected()
    ensures Ban(TwoBobs(), "a", "bob", None).Completed?
    ensures "b1" !in Ban(TwoBobs(), "a", "bob", None).state.clients
    ensures "b2" !in Ban(TwoBobs(), "a", "bob", None).state.clients
    ensures "a" in Ban(TwoBobs(), "a", "bob", None).state.clients
  {
    var s := TwoBobs();
    assert Named(s, "b1", "bob") && Named(s, "b2", "bob") && !Named(s, "a", "bob");
    assert IsAdmin(s, "a") == Some(true);
    assert UserByName(s.users, "bob") == Some(1);
    BanRemovesAll(s, "a", "bob", None);
  }

  /** Admin "a" and two lobby-less sessions of the user "bob". */
  function TwoBobs(): (s: State)
    ensures Consistent(s) && Registered(s)
  {
    var admin := Session(None, Some("alice"), Some("u0"), Some(AdminRole), true);
    var bob := Session(None, Some("bob"), Some("u1"), Some(UserRole), true);
    State(Config(None, "PySpeak", "Welcome"),
          map["a" := admin, "b1" := bob, "b2" := bob],
          ["a", "b1", "b2"],
          map[DefaultRoom := Room(None, [])],
          [UserRow("u0", "alice", AdminRole), UserRow("u1", "bob", UserRole)],
          map[], [], [])
  }

  /** What an exception in a handler (ban as written, for one) costs the
      requester: the turn ends and its own socket is closed. */
  lemma RaisedHandlerClosesRequester(s: State, id: ClientId, frame: Frame)
    requires id in s.clients && Handle(s, id, frame).Raised?
    ensures Receive(s, id, frame).ended
    ensures Close(id) in Receive(s, id, frame).out
  {
    var t := Receive(s, id, frame);
    assert t.out[|t.out| - 1] == Close(id);
  }

  /** With the loop over a snapshot, ban with consistent membership removes
      every session of the name, closes each one's socket, keeps every other
      session and completes. */
  lemma BanRemovesAll(s: State, id: ClientId, username: string, reason: Option<string>)
    requires Consistent(s) && Registered(s) && id in s.clients
    requires IsAdmin(s, id) == Some(true) && UserByName(s.users, username).Some?
    ensures Ban(s, id, username, reason).Completed?
    ensures forall c | c in Ban(s, id, username, reason).state.clients :: !Named(Ban(s, id, username, reason).state, c, username)
    ensures forall c | c in s.clients && !Named(s, c, username) :: c in Ban(s, id, username, reason).state.clients
    ensures forall c | c in s.clients && Named(s, c, username) :: Close(c) in Ban(s, id, username, reason).out
    ensures Consistent(Ban(s, id, username, reason).state)
  {
    var st := StartBan(s, id, username, reason).state;
    assert Consistent(st) by {
      assert st.clients == s.clients && st.rooms == s.rooms;
    }
    var ids := Matching(st, username, st.order);
    BanSweepConsistent(st, ids);
    var r := Ban(s, id, username, reason);
    forall c | c in r.state.clients
      ensures !Named(r.state, c, username)
    {
    }
  }

  /** The snapshot loop never raises with consistent membership, and keeps
      it consistent. */
  lemma {:induction false} BanSweepConsistent(s: State, ids: seq<ClientId>)
    requires Consistent(s)
    ensures BanSweep(s, ids).Completed?
    ensures Consistent(BanSweep(s, ids).state)
    decreases |ids|
  {
    if |ids| > 0 {
      RemoveClientConsistent(s, ids[0]);
      BanSweepConsistent(RemoveClient(s, ids[0]).state, ids[1..]);
    }
  }

  // ---- One turn of the connection loop ----

  /** The requests after which membership stays consistent: a join only
      from no room, and never into a room named "" (which removal ignores);
      a switch never into ""; a delete only of an empty or missing room. */
  predicate KeepsSeats(s: State, id: ClientId, req: Request)
    requires id in s.clients
  {
    match req
    case JoinReq(_, _, room, _) => s.clients[id].room.None? && JoinTarget(room) != ""
    case SwitchRoomReq(target, _) => target != ""
    case DeleteChannelReq(name) => name !in s.rooms || s.rooms[name].members == []
    case _ => true
  }

  /** Kick with consistent membership removes at most the one session whose
      id equals the uid, which keeps membership consistent. */
  lemma KickConsistent(s: State, id: ClientId, username: string)
    requires Consistent(s) && id in s.clients
    ensures Consistent(Kick(s, id, username).state)
  {
    if IsAdmin(s, id) == Some(true) && UserByName(s.users, username).Some? {
      var uid := s.users[UserByName(s.users, username).value].uid;
      RemoveClientConsistent(s, uid);
    }
  }

  lemma BanConsistent(s: State, id: ClientId, username: string, reason: Option<string>)
    requires Consistent(s) && id in s.clients
    ensures Consistent(Ban(s, id, username, reason).state)
  {
    match StartBan(s, id, username, reason)
    case Stop(_) =>
    case Sweep(st, _) =>
      assert st.clients == s.clients && st.rooms == s.rooms;
      BanSweepConsistent(st, Matching(st, username, st.order));
  }

  lemma PrivilegeKeyConsistent(s: State, id: ClientId, key: string)
    requires Consistent(s) && id in s.clients
    ensures Consistent(UsePrivilegeKey(s, id, key).state)
  {
    var t := UsePrivilegeKey(s, id, key).state;
    SameMembersKeeps(s, t);
  }

  lemma ChatConsistent(s: State, id: ClientId, text: string)
    requires Consistent(s) && id in s.clients
    ensures Consistent(ChatMessage(s, id, text).state)
  {
    var t := ChatMessage(s, id, text).state;
    assert t.clients == s.clients && t.rooms == s.rooms;
  }

  /** Every request that keeps seats leaves membership consistent. */
  lemma ProcessConsistent(s: State, id: ClientId, req: Request)
    requires Consistent(s) && id in s.clients && KeepsSeats(s, id, req)
    ensures Consistent(Process(s, id, req).state)
  {
    match req
    case JoinReq(username, uid, room, password) => JoinConsistent(s, id, username, uid, room, password);
    case ChatReq(text) => ChatConsistent(s, id, text);
    case SwitchRoomReq(target, password) => SwitchRoomConsistent(s, id, target, password);
    case CreateChannelReq(name, password) => CreateRoomConsistent(s, id, name, password);
    case EditChannelReq(name, password) => EditRoomConsistent(s, id, name, password);
    case DeleteChannelReq(name) => DeleteRoomConsistent(s, id, name);
    case AudioReq(_) =>
    case TalkingReq(_) =>
    case PrivateMessageReq(_, _) =>
    case BanReq(username, reason) => BanConsistent(s, id, username, reason);
    case KickReq(username, _) => KickConsistent(s, id, username);
    case UsePrivilegeKeyReq(key) => PrivilegeKeyConsistent(s, id, key);
    case OtherReq(_) =>
  }

  /** A whole turn, cleanup included, keeps the session order registered. */
  lemma ReceiveKeepsRegistered(s: State, id: ClientId, frame: Frame)
    requires Registered(s) && id in s.clients
    ensures Registered(Receive(s, id, frame).state)
  {
    var h := Handle(s, id, frame);
    if h.Raised? {
      var rm := RemoveClient(h.state, id);
      assert MarkClosed(rm.state, id).clients.Keys == rm.state.clients.Keys;
    }
  }

  /** With the order registered, update_room_list reaches every open
      session and no other. */
  lemma RoomListReachesAll(s: State)
    requires Registered(s)
    ensures forall o | o in RoomListUpdate(s) :: o.Send? && o.to in s.clients && s.clients[o.to].open
    ensures forall c | c in s.clients && s.clients[c].open ::
      Send(c, RoomList(Directory(s), s.cfg.serverName)) in RoomListUpdate(s)
  {
  }

  /** Closing a socket changes no membership. */
  lemma MarkClosedConsistent(s: State, id: ClientId)
    requires Consistent(s)
    ensures Consistent(MarkClosed(s, id))
  {
    SameMembersKeeps(s, MarkClosed(s, id));
  }

  /** One turn of the connection loop, including the cleanup after a
      raised handler, keeps membership consistent; the cleanup itself never
      raises, so an ended turn always removes the session. */
  lemma ReceiveConsistent(s: State, id: ClientId, frame: Frame)
    requires Consistent(s) && id in s.clients
    requires frame.Text? ==> KeepsSeats(s, id, frame.request)
    ensures Consistent(Receive(s, id, frame).state)
    ensures Receive(s, id, frame).ended ==> id !in Receive(s, id, frame).state.clients
  {
    var h := Handle(s, id, frame);
    if frame.Text? {
      ProcessConsistent(s, id, frame.request);
    }
    if h.Raised? {
      RemoveClientConsistent(h.state, id);
      var rm := RemoveClient(h.state, id);
      MarkClosedConsistent(rm.state, id);
    }
  }

  /** A fresh connection id keeps membership consistent. */
  lemma ConnectConsistent(s: State, id: ClientId)
    requires Consistent(s) && id !in s.clients
    ensures Consistent(Connect(s, id))
  {
    var t := Connect(s, id);
    forall c | c in t.clients && t.clients[c].room.Some?
      ensures Seated(t, c)
    {
      assert Seated(s, c);
    }
  }
}

=== FILE: rooms.dfy ===
/** The room handlers of the server: join, switch_room and the three channel
    operations (create, edit, delete). Each checks its gates first; a request
    that fails a gate gets one reply and changes nothing. */
module Rooms {
  import opened Base
  import opened Model
  import opened Fanout

  /** The server-password gate of handle_join: a configured (truthy)
      password must equal the one in the request. */
  predicate Admitted(cfg: Config, password: Option<string>) {
    !(Truthy(cfg.serverPassword) && cfg.serverPassword != password)
  }

  /** The room a join lands in: the requested one, "Lobby" when none is named. */
  function JoinTarget(room: Option<RoomName>): RoomName {
    room.GetOr(DefaultRoom)
  }

  /** The account step of handle_join: an unseen uid gets a users row with
      the given name and role "user"; a known uid keeps its row. */
  function Provision(users: seq<UserRow>, uid: Uid, username: string): (r: seq<UserRow>)
    ensures StoredRole(r, uid).Some?
    ensures StoredRole(users, uid).Some? ==> r == users
    ensures StoredRole(users, uid).None? ==>
      r == users + [UserRow(uid, username, UserRole)] && StoredRole(r, uid) == Some(UserRole)
  {
    if UserByUid(users, uid).None? then
      var r := users + [UserRow(uid, username, UserRole)];
      assert r[|users|].uid == uid;
      assert forall j | 0 <= j < |users| :: r[j] == users[j];
      r
    else users
  }

  /** The membership step of handle_join: a missing room is created without
      password and members, then the id is appended to its members (no
      de-duplication). */
  function Enter(rooms: map<RoomName, Room>, name: RoomName, id: ClientId): (r: map<RoomName, Room>)
    ensures r.Keys == rooms.Keys + {name}
    ensures name in rooms ==> r[name] == rooms[name].(members := rooms[name].members + [id])
    ensures name !in rooms ==> r[name] == Room(None, [id])
    ensures forall n | n in rooms && n != name :: r[n] == rooms[n]
  {
    var room := if name in rooms then rooms[name] else Room(None, []);
    rooms[name := room.(members := room.members + [id])]
  }

  /** handle_join. Past the server-password gate: the account is provisioned,
      the session caches name, uid and the stored role, the client id is
      appended to the target room's members (a previous room is not left),
      and the session's room becomes the target. Then the welcome, the room
      greeting with the role, the member notice of the room and the room
      list go out. */
  function Join(s: State, id: ClientId, username: string, uid: Uid, room: Option<RoomName>, password: Option<string>): (r: Step)
    requires id in s.clients
    ensures r.Completed?
    ensures !Admitted(s.cfg, password) ==>
      r.state == s && r.out == [Send(id, Error(BadServerPassword))]
    ensures Admitted(s.cfg, password) ==>
      var name := JoinTarget(room);
      && r.state.rooms == Enter(s.rooms, name, id)
      && r.state.users == Provision(s.users, uid, username)
      && r.state.clients == s.clients[id := s.clients[id].(
           room := Some(name), username := Some(username), uid := Some(uid),
           role := StoredRole(r.state.users, uid))]
      && (StoredRole(s.users, uid).None? ==> r.state.clients[id].role == Some(UserRole))
      && r.state == s.(users := r.state.users, rooms := r.state.rooms, clients := r.state.clients)
      && r.out ==
           [Send(id, Info(ServerWelcome(s.cfg.welcome))),
            Send(id, Info(RoomWelcome(name, username, StoredRole(r.state.users, uid).value)))]
           + MembersUpdate(r.state, name) + RoomListUpdate(r.state)
  {
    if !Admitted(s.cfg, password) then Reply(s, id, Error(BadServerPassword))
    else
      var name := JoinTarget(room);
      var users := Provision(s.users, uid, username);
      var role := StoredRole(users, uid);
      var session := s.clients[id].(room := Some(name), username := Some(username), uid := Some(uid), role := role);
      var s' := s.(users := users, rooms := Enter(s.rooms, name, id), clients := s.clients[id := session]);
      Completed(s',
        [Send(id, Info(ServerWelcome(s.cfg.welcome))), Send(id, Info(RoomWelcome(name, username, role.value)))]
        + MembersUpdate(s', name) + RoomListUpdate(s'))
  }

  /** A join keeps the session order registered: it changes one session in
      place and adds none. */
  lemma JoinKeepsRegistered(s: State, id: ClientId, username: string, uid: Uid, room: Option<RoomName>, password: Option<string>)
    requires id in s.clients && Registered(s)
    ensures Registered(Join(s, id, username, uid, room, password).state)
  {
    var t := Join(s, id, username, uid, room, password).state;
    assert t.clients.Keys == s.clients.Keys && t.order == s.order;
  }

  /** The room-password gate of handle_switch_room: a room with a truthy
      password demands exactly that password; there is no bypass for any role. */
  predicate PasswordAccepted(room: Room, password: Option<string>) {
    !(Truthy(room.password) && room.password != password)
  }

  /** The membership step of handle_switch_room: one occurrence of the id
      leaves the previous room when that room is truthy and lists it, and
      the id is appended to the target; every other room is untouched. */
  function Move(rooms: map<RoomName, Room>, prev: Option<RoomName>, target: RoomName, id: ClientId): (r: map<RoomName, Room>)
    requires target in rooms && prev != Some(target)
    requires Truthy(prev) ==> prev.value in rooms
    ensures r.Keys == rooms.Keys
    ensures r[target] == rooms[target].(members := rooms[target].members + [id])
    ensures forall n | n in rooms && n != target ::
      r[n] == (if prev == Some(n) && n != "" && id in rooms[n].members
               then rooms[n].(members := RemoveFirst(rooms[n].members, id)) else rooms[n])
  {
    var rooms1 :=
      if Truthy(prev) && id in rooms[prev.value].members
      then rooms[prev.value := rooms[prev.value].(members := RemoveFirst(rooms[prev.value].members, id))]
      else rooms;
    rooms1[target := rooms1[target].(members := rooms1[target].members + [id])]
  }

  /** The three checks handle_switch_room makes before touching anything. */
  predicate SwitchGates(s: State, id: ClientId, target: RoomName, password: Option<string>)
    requires id in s.clients
  {
    s.clients[id].room != Some(target) && target in s.rooms && PasswordAccepted(s.rooms[target], password)
  }

  /** handle_switch_room. Rejections, each a single reply with no change:
      the target is the current room, the target does not exist, or the
      password does not match (`password_required`). If the current room is
      truthy but was deleted, reading its row raises before any change.
      Otherwise one occurrence of the id leaves the current room, the id is
      appended to the target, and the session's room becomes the target.
      The old room's member notice is built while the removal is still
      uncommitted (update_room_members reads through a second SQLite
      connection), so it lists the membership before the switch. */
  function SwitchRoom(s: State, id: ClientId, target: RoomName, password: Option<string>): (r: Step)
    requires id in s.clients
    ensures Registered(s) ==> Registered(r.state)
    ensures s.clients[id].room == Some(target) ==>
      r == Completed(s, [Send(id, Error(AlreadyInRoom(target)))])
    ensures s.clients[id].room != Some(target) && target !in s.rooms ==>
      r == Completed(s, [Send(id, Error(NoSuchRoom(target)))])
    ensures s.clients[id].room != Some(target) && target in s.rooms && !PasswordAccepted(s.rooms[target], password) ==>
      r == Completed(s, [Send(id, PasswordRequired(target))])
    ensures r.Raised? <==>
      SwitchGates(s, id, target, password) && Truthy(s.clients[id].room) && s.clients[id].room.value !in s.rooms
    ensures r.Raised? ==> r.state == s && r.out == []
    ensures SwitchGates(s, id, target, password) && r.Completed? ==>
      && r.state.rooms == Move(s.rooms, s.clients[id].room, target, id)
      && r.state.clients == s.clients[id := s.clients[id].(room := Some(target))]
      && r.state == s.(rooms := r.state.rooms, clients := r.state.clients)
      && r.out ==
           (if Truthy(s.clients[id].room) && id in s.rooms[s.clients[id].room.value].members
            then MembersUpdate(s, s.clients[id].room.value) else [])
           + MembersUpdate(r.state, target) + [Send(id, SwitchedRoom(target))] + RoomListUpdate(r.state)
  {
    var current := s.clients[id].room;
    if current == Some(target) then Reply(s, id, Error(AlreadyInRoom(target)))
    else if target !in s.rooms then Reply(s, id, Error(NoSuchRoom(target)))
    else if !PasswordAccepted(s.rooms[target], password) then Reply(s, id, PasswordRequired(target))
    else if Truthy(current) && current.value !in s.rooms then Raised(s, [])
    else
      var leaving := Truthy(current) && id in s.rooms[current.value].members;
      var oldNotice := if leaving then MembersUpdate(s, current.value) else [];
      var s' := s.(rooms := Move(s.rooms, current, target, id), clients := s.clients[id := s.clients[id].(room := Some(target))]);
      Completed(s', oldNotice + MembersUpdate(s', target) + [Send(id, SwitchedRoom(target))] + RoomListUpdate(s'))
  }

  /** handle_create_room. The gate reads the role cached on the session
      (a session that never joined has none, and the lookup raises KeyError);
      only admin and superadmin pass. An existing name is refused; otherwise
      the room is added with the given password and no members. */
  function CreateRoom(s: State, id: ClientId, name: RoomName, password: Option<string>): (r: Step)
    requires id in s.clients
    ensures Registered(s) ==> Registered(r.state)
    ensures r.Raised? <==> s.clients[id].role.None?
    ensures r.Raised? ==> r.state == s && r.out == []
    ensures s.clients[id].role.Some? && !Privileged(s.clients[id].role) ==>
      r == Completed(s, [Send(id, Error(Forbidden(CreateRooms)))])
    ensures Privileged(s.clients[id].role) && name in s.rooms ==>
      r == Completed(s, [Send(id, Error(RoomExists(name)))])
    ensures Privileged(s.clients[id].role) && name !in s.rooms ==>
      && r.Completed?
      && r.state == s.(rooms := r.state.rooms)
      && r.state.rooms.Keys == s.rooms.Keys + {name}
      && r.state.rooms[name] == Room(password, [])
      && (forall n | n in s.rooms :: r.state.rooms[n] == s.rooms[n])
      && r.out == [Send(id, Info(RoomCreated(name)))] + RoomListUpdate(r.state)
  {
    var role := s.clients[id].role;
    if role.None? then Raised(s, [])
    else if !Privileged(role) then Reply(s, id, Error(Forbidden(CreateRooms)))
    else if name in s.rooms then Reply(s, id, Error(RoomExists(name)))
    else
      var s' := s.(rooms := s.rooms[name := Room(password, [])]);
      Completed(s', [Send(id, Info(RoomCreated(name)))] + RoomListUpdate(s'))
  }

  /** is_admin: the STORED role of the session's uid (re-read from the users
      table, not the cached one). A session without a uid raises KeyError,
      modelled as `None`. */
  function IsAdmin(s: State, id: ClientId): (r: Option<bool>)
    requires id in s.clients
    ensures r.None? <==> s.clients[id].uid.None?
    ensures r.Some? ==> (r.value <==> Privileged(StoredRole(s.users, s.clients[id].uid.value)))
  {
    match s.clients[id].uid
    case None => None
    case Some(uid) => Some(Privileged(StoredRole(s.users, uid)))
  }

  /** handle_edit_room: gated by the stored role; an existing room gets the
      new password (members untouched), a missing one is an error. */
  function EditRoom(s: State, id: ClientId, name: RoomName, password: Option<string>): (r: Step)
    requires id in s.clients
    ensures Registered(s) ==> Registered(r.state)
    ensures r.Raised? <==> IsAdmin(s, id).None?
    ensures r.Raised? ==> r.state == s && r.out == []
    ensures IsAdmin(s, id) == Some(false) ==> r == Completed(s, [Send(id, Error(Forbidden(EditRooms)))])
    ensures IsAdmin(s, id) == Some(true) && name !in s.rooms ==> r == Completed(s, [Send(id, Error(NoSuchRoom(name)))])
    ensures IsAdmin(s, id) == Some(true) && name in s.rooms ==>
      && r.Completed?
      && r.state == s.(rooms := r.state.rooms)
      && r.state.rooms.Keys == s.rooms.Keys
      && r.state.rooms[name] == Room(password, s.rooms[name].members)
      && (forall n | n in s.rooms && n != name :: r.state.rooms[n] == s.rooms[n])
      && r.out == [Send(id, Info(RoomEdited(name)))] + RoomListUpdate(r.state)
  {
    match IsAdmin(s, id)
    case None => Raised(s, [])
    case Some(false) => Reply(s, id, Error(Forbidden(EditRooms)))
    case Some(true) =>
      if name in s.rooms then
        var s' := s.(rooms := s.rooms[name := s.rooms[name].(password := password)]);
        Completed(s', [Send(id, Info(RoomEdited(name)))] + RoomListUpdate(s'))
      else Reply(s, id, Error(NoSuchRoom(name)))
  }

  /** handle_delete_room: gated by the stored role; an existing room is
      removed from the table and nothing else changes (its members' sessions
      still name it), a missing one is an error. */
  function DeleteRoom(s: State, id: ClientId, name: RoomName): (r: Step)
    requires id in s.clients
    ensures Registered(s) ==> Registered(r.state)
    ensures r.Raised? <==> IsAdmin(s, id).None?
    ensures r.Raised? ==> r.state == s && r.out == []
    ensures IsAdmin(s, id) == Some(false) ==> r == Completed(s, [Send(id, Error(Forbidden(DeleteRooms)))])
    ensures IsAdmin(s, id) == Some(true) && name !in s.rooms ==> r == Completed(s, [Send(id, Error(NoSuchRoom(name)))])
    ensures IsAdmin(s, id) == Some(true) && name in s.rooms ==>
      && r.Completed?
      && r.state == s.(rooms := r.state.rooms)
      && r.state.rooms.Keys == s.rooms.Keys - {name}
      && (forall n | n in r.state.rooms :: r.state.rooms[n] == s.rooms[n])
      && r.out == [Send(id, Info(RoomDeleted(name)))] + RoomListUpdate(r.state)
  {
    match IsAdmin(s, id)
    case None => Raised(s, [])
    case Some(false) => Reply(s, id, Error(Forbidden(DeleteRooms)))
    case Some(true) =>
      if name in s.rooms then
        var s' := s.(rooms := s.rooms - {name});
        Completed(s', [Send(id, Info(RoomDeleted(name)))] + RoomListUpdate(s'))
      else Reply(s, id, Error(NoSuchRoom(name)))
  }
}

=== FILE: sessions.dfy ===
/** Session lifecycle: a connection registers a client entry (handler), and
    leaving removes it from its room and from `clients`
    (remove_client_from_room), whether the socket closed or the handler
    raised. */
module Sessions {
  import opened Base
  import opened Model
  import opened Fanout

  /** Registering a new connection in the session dictionary: a session with no
      room, no name and no identity. Assigning an existing key keeps its
      place in the dictionary's order. */
  function Connect(s: State, id: ClientId): (r: State)
    ensures id in r.clients && r.clients[id] == NewSession
    ensures r.clients.Keys == s.clients.Keys + {id}
    ensures forall c | c in s.clients && c != id :: r.clients[c] == s.clients[c]
    ensures Registered(s) ==> Registered(r)
    ensures r == s.(clients := r.clients, order := r.order)
  {
    s.(clients := s.clients[id := NewSession],
       order := if id in s.clients then s.order else s.order + [id])
  }

  /** Deleting the session's dictionary entry. */
  function Forget(s: State, id: ClientId): (r: State)
    ensures r.clients == s.clients - {id}
    ensures r.order == Without(s.order, id)
    ensures r.rooms == s.rooms && r.users == s.users && r.keys == s.keys && r.cfg == s.cfg
  {
    s.(clients := s.clients - {id}, order := Without(s.order, id))
  }

  /** remove_client_from_room. When the client has a (truthy) room, one
      occurrence of its id leaves that room's members and, if it was there,
      both notices go out; then the entry is deleted. If the room no longer
      exists, reading its missing row raises before anything changes and the entry
      stays. For an id that is not a client it does nothing. */
  function RemoveClient(s: State, id: ClientId): (r: Step)
    ensures id !in s.clients ==> r == Completed(s, [])
    ensures r.Raised? <==>
      id in s.clients && Truthy(s.clients[id].room) && s.clients[id].room.value !in s.rooms
    ensures r.Raised? ==> r.state == s && r.out == []
    ensures r.Completed? ==>
      && r.state.clients == s.clients - {id}
      && r.state.rooms.Keys == s.rooms.Keys
      && r.state.users == s.users && r.state.keys == s.keys && r.state.cfg == s.cfg
    ensures r.Completed? ==> forall n | n in s.rooms ::
      r.state.rooms[n].password == s.rooms[n].password
      && r.state.rooms[n].members ==
        (if id in s.clients && s.clients[id].room == Some(n) && n != "" && id in s.rooms[n].members
         then RemoveFirst(s.rooms[n].members, id)
         else s.rooms[n].members)
    ensures r.Completed? && Registered(s) ==> Registered(r.state)
    ensures r.Completed? ==>
      var mid := r.state.(clients := s.clients, order := s.order);
      if id in s.clients && Truthy(s.clients[id].room) && id in s.rooms[s.clients[id].room.value].members
      then r.out == MembersUpdate(mid, s.clients[id].room.value) + RoomListUpdate(mid)
      else r.out == []
    ensures forall o | o in r.out :: o.Send?
    ensures r.state == s.(rooms := r.state.rooms, clients := r.state.clients, order := r.state.order)
  {
    if id in s.clients && Truthy(s.clients[id].room) then
      var name := s.clients[id].room.value;
      if name !in s.rooms then Raised(s, [])
      else if id in s.rooms[name].members then
        var s1 := s.(rooms := s.rooms[name := s.rooms[name].(members := RemoveFirst(s.rooms[name].members, id))]);
        Completed(Forget(s1, id), MembersUpdate(s1, name) + RoomListUpdate(s1))
      else Completed(Forget(s, id), [])
    else if id in s.clients then Completed(Forget(s, id), [])
    else Completed(s, [])
  }

  /** The `finally` of handler after the client closed its socket. The
      removal raises exactly when the session names a room that no longer
      exists; then the closed entry stays. Otherwise the entry is deleted,
      and the notices go to the other sessions only, since the leaving
      socket is already closed. */
  function Disconnect(s: State, id: ClientId): (r: Step)
    ensures id !in s.clients ==> r == Completed(s, [])
    ensures r.Raised? <==>
      id in s.clients && Truthy(s.clients[id].room) && s.clients[id].room.value !in s.rooms
    ensures r.Raised? ==> r.state == MarkClosed(s, id) && r.out == []
    ensures r.Raised? ==> id in r.state.clients && !r.state.clients[id].open
    ensures r.Completed? ==> r.state.clients == s.clients - {id} && r.state.rooms.Keys == s.rooms.Keys
    ensures forall o | o in r.out :: o.Send? && o.to != id
  {
    RemoveClient(MarkClosed(s, id), id)
  }
}

=== FILE: traffic.dfy ===
/** The relay handlers of the server: audio frames, talking flags, chat
    messages and private messages. None of them changes room membership. */
module Traffic {
  import opened Base
  import opened Model
  import opened Fanout

  /** The name of the sender's room when the rooms table has a row for it,
      or `None` when the row is missing (no room yet, or the room was
      deleted) and reading it raises. */
  function SenderRoom(s: State, id: ClientId): (r: Option<RoomName>)
    requires id in s.clients
    ensures r.Some? <==> s.clients[id].room.Some? && s.clients[id].room.value in s.rooms
    ensures r.Some? ==> r == s.clients[id].room
  {
    var room := s.clients[id].room;
    if room.Some? && room.value in s.rooms then room else None
  }

  /** Turn a relay into a handler result: the state is unchanged, and a
      member id that is gone ends the handler with an exception. */
  function Finish(s: State, d: Delivery): (r: Step)
    ensures r.state == s && r.out == d.sends
    ensures r.Completed? <==> d.complete
  {
    if d.complete then Completed(s, d.sends) else Raised(s, d.sends)
  }

  /** handle_audio: the frame goes verbatim to every member of the sender's
      current room except the sender, open sockets only. */
  function RelayAudio(s: State, id: ClientId, payload: Payload): (r: Step)
    requires id in s.clients
    ensures r.state == s
    ensures SenderRoom(s, id).None? ==> r == Raised(s, [])
    ensures forall o | o in r.out ::
      && SenderRoom(s, id).Some?
      && o == Send(o.to, Audio(payload))
      && o.to != id
      && o.to in s.rooms[SenderRoom(s, id).value].members
      && o.to in s.clients && s.clients[o.to].open
    ensures SenderRoom(s, id).Some? ==>
      (r.Completed? <==> forall m | m in s.rooms[SenderRoom(s, id).value].members && m != id :: m in s.clients)
    ensures SenderRoom(s, id).Some? && r.Completed? ==>
      forall m | m in s.rooms[SenderRoom(s, id).value].members && m != id && m in s.clients && s.clients[m].open ::
        Send(m, Audio(payload)) in r.out
  {
    match SenderRoom(s, id)
    case None => Raised(s, [])
    case Some(name) => Finish(s, Relay(s.rooms[name].members, s.clients, Some(id), Audio(payload)))
  }

  /** handle_talking: the sender's name and flag go to every member of its
      room, the sender included. */
  function RelayTalking(s: State, id: ClientId, status: bool): (r: Step)
    requires id in s.clients
    ensures r.state == s
    ensures SenderRoom(s, id).None? ==> r == Raised(s, [])
    ensures forall o | o in r.out ::
      && SenderRoom(s, id).Some?
      && o == Send(o.to, Talking(s.clients[id].username, status))
      && o.to in s.rooms[SenderRoom(s, id).value].members
      && o.to in s.clients && s.clients[o.to].open
    ensures SenderRoom(s, id).Some? ==>
      (r.Completed? <==> forall m | m in s.rooms[SenderRoom(s, id).value].members :: m in s.clients)
    ensures SenderRoom(s, id).Some? && r.Completed? ==>
      forall m | m in s.rooms[SenderRoom(s, id).value].members && m in s.clients && s.clients[m].open ::
        Send(m, Talking(s.clients[id].username, status)) in r.out
  {
    match SenderRoom(s, id)
    case None => Raised(s, [])
    case Some(name) => Finish(s, Relay(s.rooms[name].members, s.clients, None, Talking(s.clients[id].username, status)))
  }

  /** The first users row whose username is the
      sender's cached name (a session without a name matches no row). */
  function AuthorRow(s: State, id: ClientId): (r: Option<nat>)
    requires id in s.clients
    ensures r.Some? ==>
      s.clients[id].username.Some? && r.value < |s.users| && s.users[r.value].username == s.clients[id].username.value
    ensures r.Some? ==> forall j | 0 <= j < r.value :: s.users[j].username != s.clients[id].username.value
    ensures r.None? && s.clients[id].username.Some? ==>
      forall j | 0 <= j < |s.users| :: s.users[j].username != s.clients[id].username.value
  {
    match s.clients[id].username
    case None => None
    case Some(name) => UserByName(s.users, name)
  }

  /** handle_message: the message is recorded against the sender's room and
      users row, then the sender's name and text go to every member of the
      room, the sender included. A missing room or users row raises before
      anything is recorded. */
  function ChatMessage(s: State, id: ClientId, text: string): (r: Step)
    requires id in s.clients
    ensures SenderRoom(s, id).None? || AuthorRow(s, id).None? ==> r == Raised(s, [])
    ensures SenderRoom(s, id).Some? && AuthorRow(s, id).Some? ==>
      r.state == s.(chats := s.chats + [ChatRecord(SenderRoom(s, id).value, AuthorRow(s, id).value, text)])
    ensures forall o | o in r.out ::
      && SenderRoom(s, id).Some?
      && o == Send(o.to, Chat(s.clients[id].username, text))
      && o.to in s.rooms[SenderRoom(s, id).value].members
      && o.to in s.clients && s.clients[o.to].open
    ensures SenderRoom(s, id).Some? && AuthorRow(s, id).Some? ==>
      (r.Completed? <==> forall m | m in s.rooms[SenderRoom(s, id).value].members :: m in s.clients)
    ensures SenderRoom(s, id).Some? && r.Completed? ==>
      forall m | m in s.rooms[SenderRoom(s, id).value].members && m in s.clients && s.clients[m].open ::
        Send(m, Chat(s.clients[id].username, text)) in r.out
  {
    match SenderRoom(s, id)
    case None => Raised(s, [])
    case Some(name) =>
      match AuthorRow(s, id)
      case None => Raised(s, [])
      case Some(row) =>
        var s' := s.(chats := s.chats + [ChatRecord(name, row, text)]);
        Finish(s', Relay(s.rooms[name].members, s.clients, None, Chat(s.clients[id].username, text)))
  }

  /** handle_private_message: the recipient's name is resolved to a uid
      through the users table, and the message goes to the client whose key
      equals that uid, if there is one with an open socket. Client keys are
      connection ids, not uids, so normally nobody receives it. */
  function PrivateMessage(s: State, id: ClientId, recipient: string, text: string): (r: Step)
    requires id in s.clients
    ensures r.Completed? && r.state == s
    ensures |r.out| <= 1
    ensures forall o | o in r.out ::
      && o == Send(o.to, Private(s.clients[id].username, text))
      && o.to in s.clients && s.clients[o.to].open
      && exists j | 0 <= j < |s.users| ::
           && s.users[j].username == recipient && s.users[j].uid == o.to
           && forall k | 0 <= k < j :: s.users[k].username != recipient
    ensures r.out != [] <==>
      var row := UserByName(s.users, recipient);
      row.Some? && s.users[row.value].uid in s.clients && s.clients[s.users[row.value].uid].open
  {
    match UserByName(s.users, recipient)
    case None => Completed(s, [])
    case Some(row) =>
      var uid := s.users[row].uid;
      if uid in s.clients && s.clients[uid].open
      then Completed(s, [Send(uid, Private(s.clients[id].username, text))])
      else Completed(s, [])
  }
}

=== FILE: voice_activity.dfy ===
/** The client's talking detector (the capture loop of AudioThread.run): a
    window of the last 300 per-frame silence flags and a `talking` bit.
    Each unmuted iteration reads one frame, records whether it was silent,
    announces `talking: true` once no frame in the window is silent and
    `talking: false` once every frame in it is, then forwards the raw frame. */
module VoiceActivity {

  /** A frame quieter than this peak level counts as silent. */
  const TalkingThreshold: int := 500
  /** Length of the silence window (`deque(maxlen=300)`). */
  const WindowSize: nat := 300

  /** One captured block of 16-bit samples; a read never returns an empty block. */
  type Frame = s: seq<int> | |s| > 0 witness [0]

  /** The peak level of a frame: its largest sample value (not its largest magnitude). */
  function Peak(f: Frame): (p: int)
    ensures p in f
    ensures forall x | x in f :: x <= p
  {
    if |f| == 1 then f[0]
    else
      var rest: Frame := f[1..];
      assert forall x | x in f :: x == f[0] || x in rest;
      var p := Peak(rest);
      if f[0] >= p then f[0] else p
  }

  /** The flag appended for a frame. */
  predicate Silent(f: Frame) {
    Peak(f) < TalkingThreshold
  }

  /** `deque.append` on a deque bounded to WindowSize: the oldest flag drops
      out once the window is full. */
  function Push(window: seq<bool>, flag: bool): (w: seq<bool>)
    requires |window| <= WindowSize
    ensures |w| == if |window| < WindowSize then |window| + 1 else WindowSize
    ensures w[|w| - 1] == flag
    ensures w[..|w| - 1] == window[|window| - (|w| - 1)..]
  {
    if |window| < WindowSize then
      assert (window + [flag])[..|window|] == window;
      window + [flag]
    else
      var w := window[1..] + [flag];
      assert w[..|w| - 1] == window[1..];
      w
  }

  datatype Detector = Detector(talking: bool, window: seq<bool>, muted: bool)

  predicate Valid(d: Detector) {
    |d.window| <= WindowSize
  }

  /** State when the thread starts: not talking, empty window, microphone on. */
  const Initial: Detector := Detector(false, [], false)

  /** What the thread sends: a talking status message or a raw frame. */
  datatype Emit = Status(talking: bool) | Raw(frame: Frame)

  /** One turn of the `while self.running` loop, or a call to mute_mic / unmute_mic. */
  datatype Event = Tick(frame: Frame) | MuteMic | UnmuteMic

  /** One event. A tick while muted reads nothing, sends nothing and leaves
      the window alone. */
  function Step(d: Detector, e: Event): (r: (Detector, seq<Emit>))
    requires Valid(d)
    ensures Valid(r.0)
    ensures !e.Tick? ==> r.0 == d.(muted := e.MuteMic?) && r.1 == []
    ensures e.Tick? && d.muted ==> r == (d, [])
    ensures e.Tick? && !d.muted ==>
      && r.0.muted == d.muted
      && r.0.window == Push(d.window, Silent(e.frame))
      && 1 <= |r.1| <= 2
      && r.1[|r.1| - 1] == Raw(e.frame)
      && (forall i | 0 <= i < |r.1| - 1 :: r.1[i].Status?)
      && (Status(true) in r.1 ==> !d.talking && true !in r.0.window)
      && (Status(false) in r.1 ==> d.talking && false !in r.0.window)
      && (|r.1| == 2 <==> r.0.talking != d.talking)
      && (|r.1| == 2 ==> r.1[0] == Status(r.0.talking))
    ensures e.Tick? && !d.muted ==>
      r.0.talking == if d.talking then false in r.0.window else true !in r.0.window
  {
    match e
    case MuteMic => (d.(muted := true), [])
    case UnmuteMic => (d.(muted := false), [])
    case Tick(f) =>
      if d.muted then (d, [])
      else
        var w := Push(d.window, Silent(f));
        var up := !d.talking && true !in w;
        var talking1 := if up then true else d.talking;
        var down := talking1 && false !in w;
        var talking2 := if down then false else talking1;
        assert !(up && down);
        var status := if up then [Status(true)] else if down then [Status(false)] else [];
        (Detector(talking2, w, false), status + [Raw(f)])
  }

  /** From the start, one loud frame announces talking at once: the status
      goes out before the frame. */
  lemma FirstLoudFrameAnnounces(f: Frame)
    requires !Silent(f)
    ensures Step(Initial, Tick(f)).0.talking
    ensures Step(Initial, Tick(f)).1 == [Status(true), Raw(f)]
  {
    assert Push([], false) == [false];
  }

  /** A talking detector that reads a frame while every flag in the window
      is silent falls quiet and announces it before the frame. */
  lemma SilentWindowEndsTalking(d: Detector, f: Frame)
    requires Valid(d) && d.talking && !d.muted
    requires forall i | 0 <= i < |d.window| :: d.window[i]
    requires Silent(f)
    ensures !Step(d, Tick(f)).0.talking
    ensures Step(d, Tick(f)).1 == [Status(false), Raw(f)]
  {
    var w := Push(d.window, true);
    assert forall i | 0 <= i < |w| - 1 :: w[i] == d.window[|d.window| - (|w| - 1) + i];
    assert false !in w;
  }

  /** Fold a sequence of events through Step. */
  function Run(d: Detector, events: seq<Event>): (r: (Detector, seq<Emit>))
    requires Valid(d)
    decreases |events|
    ensures Valid(r.0)
  {
    if |events| == 0 then (d, [])
    else
      var init := Run(d, events[..|events| - 1]);
      var last := Step(init.0, events[|events| - 1]);
      (last.0, init.1 + last.1)
  }

  /** The status flags in the order they were sent. */
  function Statuses(out: seq<Emit>): (r: seq<bool>)
    ensures |r| <= |out|
  {
    if |out| == 0 then []
    else Statuses(out[..|out| - 1]) + (if out[|out| - 1].Status? then [out[|out| - 1].talking] else [])
  }

  /** The raw frames in the order they were sent. */
  function Frames(out: seq<Emit>): seq<Frame> {
    if |out| == 0 then []
    else Frames(out[..|out| - 1]) + (if out[|out| - 1].Raw? then [out[|out| - 1].frame] else [])
  }

  /** The frames that were read: those of the ticks seen while unmuted. */
  function CapturedFrames(d: Detector, events: seq<Event>): seq<Frame>
    requires Valid(d)
    decreases |events|
  {
    if |events| == 0 then []
    else
      var init := Run(d, events[..|events| - 1]);
      var e := events[|events| - 1];
      CapturedFrames(d, events[..|events| - 1]) + (if e.Tick? && !init.0.muted then [e.frame] else [])
  }

  lemma {:induction false} StatusesAppend(a: seq<Emit>, b: seq<Emit>)
    ensures Statuses(a + b) == Statuses(a) + Statuses(b)
    decreases |b|
  {
    if |b| == 0 {
      assert a + b == a;
    } else {
      assert (a + b)[..|a + b| - 1] == a + b[..|b| - 1];
      StatusesAppend(a, b[..|b| - 1]);
    }
  }

  lemma {:induction false} FramesAppend(a: seq<Emit>, b: seq<Emit>)
    ensures Frames(a + b) == Frames(a) + Frames(b)
    decreases |b|
  {
    if |b| == 0 {
      assert a + b == a;
    } else {
      assert (a + b)[..|a + b| - 1] == a + b[..|b| - 1];
      FramesAppend(a, b[..|b| - 1]);
    }
  }

  /** What one step contributes to the status and frame streams. */
  lemma StepStreams(d: Detector, e: Event)
    requires Valid(d)
    ensures Statuses(Step(d, e).1) == if Step(d, e).0.talking != d.talking then [Step(d, e).0.talking] else []
    ensures Frames(Step(d, e).1) == if e.Tick? && !d.muted then [e.frame] else []
  {
    var out := Step(d, e).1;
    if |out| == 2 {
      assert out[..1] == [out[0]];
      assert out[..1][..0] == [];
      assert Frames(out[..1]) == [];
      assert Statuses(out[..1]) == [out[0].talking];
    } else if |out| == 1 {
      assert out[..0] == [];
    }
  }

  /** The i-th status message says `true` exactly when i is even. */
  predicate Alternating(ss: seq<bool>) {
    forall i | 0 <= i < |ss| :: ss[i] == (i % 2 == 0)
  }

  /** From the initial state, status messages strictly alternate starting
      with `true`, and the detector is talking exactly when an odd number of
      them has been sent (the last one said `true`). */
  lemma {:induction false} StatusesAlternate(events: seq<Event>)
    ensures Alternating(Statuses(Run(Initial, events).1))
    ensures Run(Initial, events).0.talking <==> |Statuses(Run(Initial, events).1)| % 2 == 1
    decreases |events|
  {
    if |events| > 0 {
      var init := Run(Initial, events[..|events| - 1]);
      StatusesAlternate(events[..|events| - 1]);
      var last := Step(init.0, events[|events| - 1]);
      StatusesAppend(init.1, last.1);
      StepStreams(init.0, events[|events| - 1]);
      AlternatingStep(Statuses(init.1), init.0.talking, last.0.talking, Statuses(last.1));
    }
  }

  /** Appending the status a step sends (nothing, or the new talking bit
      when it changed) keeps a stream alternating and in agreement with the
      talking bit. */
  lemma AlternatingStep(s0: seq<bool>, before: bool, after: bool, s1: seq<bool>)
    requires Alternating(s0) && (before <==> |s0| % 2 == 1)
    requires s1 == if after != before then [after] else []
    ensures Alternating(s0 + s1)
    ensures after <==> |s0 + s1| % 2 == 1
  {
    if after != before {
      assert (s0 + s1)[|s0|] == after;
    }
  }

  /** Every frame that is read is forwarded exactly once and in order; while
      muted nothing is forwarded. */
  lemma {:induction false} FramesForwarded(d: Detector, events: seq<Event>)
    requires Valid(d)
    ensures Frames(Run(d, events).1) == CapturedFrames(d, events)
    decreases |events|
  {
    if |events| > 0 {
      var init := Run(d, events[..|events| - 1]);
      FramesForwarded(d, events[..|events| - 1]);
      var last := Step(init.0, events[|events| - 1]);
      FramesAppend(init.1, last.1);
      StepStreams(init.0, events[|events| - 1]);
    }
  }

  /** AudioThread.run over a finite script of events, as a loop. */
  method RunThread(events: seq<Event>) returns (d: Detector, out: seq<Emit>)
    ensures Valid(d)
    ensures Alternating(Statuses(out))
    ensures d.talking <==> |Statuses(out)| % 2 == 1
    ensures Frames(out) == CapturedFrames(Initial, events)
  {
    d := Initial;
    out := [];
    var k := 0;
    while k < |events|
      invariant 0 <= k <= |events|
      invariant Valid(d)
      invariant (d, out) == Run(Initial, events[..k])
    {
      assert events[..k + 1][..k] == events[..k];
      var next := Step(d, events[k]);
      d := next.0;
      out := out + next.1;
      k := k + 1;
    }
    assert events[..k] == events;
    StatusesAlternate(events);
    FramesForwarded(Initial, events);
  }
}
